=== FILE: README.md ===
# fast-tasks: the task bus, its SQL builders, error mapping, login guard and migrations

fast-tasks runs as two PM2 processes. The API process (Express) answers HTTP requests and
asks the service process for work over the PM2 message bus. The service process owns the
PostgreSQL database. This Dafny project models the pure logic at the seams between them:

- **Caller side of the bus** (`IpcConnector`, from `api/connectors/IPCConnector.js`). The
  `#requests` table holds the waiting callers. It is keyed by the request *topic*; there is
  no per-call identifier and no timeout. `getAllTasks` registers under the fixed key
  `API/GET/getAllTasks`. `#handleResponse` handles every `process:msg` packet: it drops the
  first `:response` from a reply topic, deletes the matched entry, then settles the caller.
  A settlement is an outcome value rather than a promise, and a run of the caller is a
  sequence of call and delivery events.
- **Responder side** (`Services`, from `services/index.js`). This is the topic `switch` of
  the `process:msg` listener, `handleGetAllTasks` and `sendResponseToCaller`. Reading the
  tasks table and the success of an INSERT are oracle parameters.
- **INSERT builders** (`Queries`, from `services/sql/queries.js`). `createTask` and
  `bulkCreateTasks` build the SQL text and the parameter list from the tasks' own keys and
  values.
- **HTTP errors** (`Errors`, `ErrorsCatcher`, from `api/errors/index.js` and
  `api/middlewares/errorsCatcher.js`). These are the six error classes and the middleware
  that turns an error into a status and a `{ message, code }` body.
- **Login/signin guard** (`AuthController`, from `api/controllers/authController.js`). This
  is the check on `username` and `pass` and the `BadRequestError` message built from three
  `(isErr, msg)` pairs.
- **Start-up migrations** (`InitDatabase`, from `services/sql/initDatabase.js`). It reads the
  current version, creates the database when the probe says it does not exist, and applies
  newer migrations in order until the first failure. Every database call and file read is an
  oracle.

Two support modules carry the JavaScript semantics the code relies on:

- `JsValues` covers values, truthiness, the `TypeError` of reading a property of
  `undefined`/`null`, and `Object.keys`/`Object.values` order.
- `JsStrings` covers `indexOf`, `includes`, `endsWith`, `replace` with a string pattern
  (first occurrence only) and `join`. Its `split` is not called by the code: it is the
  model's inverse of `join`, used to state what a joined message contains.

`Interop` joins the two processes: the reply the service process sends, as the caller's
handler reads it, and the request the caller sends, as the listener routes it.

Calls are matched by topic, with no per-call identifier and no timeout. The models state
these behaviours of the code as written:

- calls are matched by topic, so a second `getAllTasks` overwrites the first
  (`IpcConnector.OverwrittenCallNeverSettles`);
- the caller resolves with `data.data`, while the responder answers `{ tasks }`, so a
  successful read settles the caller with `undefined` (`Interop.TasksNeverReachCaller`);
- the guard's message says "Missing username" when a username IS present, because the flag
  is `!!req.body.username` (`AuthController.UsernameWithoutPassword`);
- a status outside the five listed codes, such as 409, is sent as the HTTP status while the
  body says `code: 500` (`ErrorsCatcher.UnlistedStatusReportsInternalCode`).

The model does not correct them.

## Model

| member | source | states |
|---|---|---|
| `IpcConnector.GetAllTasks` | api/connectors/IPCConnector.js:38-44 | the call registers under the fixed key `API/GET/getAllTasks`, replacing any earlier caller there; every other waiting caller keeps its entry |
| `IpcConnector.HandleResponse` | api/connectors/IPCConnector.js:22-36 | a body that is `undefined`/`null`, or whose topic is truthy but not a string, throws before the table is touched; a falsy topic or a string topic not ending in ":response" is ignored; a reply topic whose key nobody waits on settles nobody; a matching reply removes exactly its key and settles the caller stored there: rejected with `data.error` when that is truthy, otherwise resolved with `data.data`; a reply with no `data` loses its caller to the `TypeError` |
| `IpcConnector.ReplyKeyOfRequestTopic` | api/connectors/IPCConnector.js:24-26 | the reply `T + ":response"` to a request topic T that does not contain ":response" is looked up under T |
| `IpcConnector.ReplyKeyRemovesFirstOccurrenceOnly` | api/connectors/IPCConnector.js:25 | only the first ":response" is removed: `a:responseb:response` is looked up under `ab:response` |
| `IpcConnector.DuplicateReplyIsNoop` | api/connectors/IPCConnector.js:26-28 | after a reply has consumed its caller, the same reply again finds nobody waiting and changes nothing |
| `IpcConnector.OtherCallersUntouched` | api/connectors/IPCConnector.js:28 | handling a packet keeps every waiting caller except the matched one, under the same key |
| `IpcConnector.AtMostOnce` | api/connectors/IPCConnector.js:22-44 | over any run of calls and deliveries with fresh callers, no caller is settled twice, and only callers that were waiting or called during the run are settled |
| `IpcConnector.OverwrittenCallNeverSettles` | api/connectors/IPCConnector.js:41-42 | of two outstanding `getAllTasks` calls, the first is overwritten and is never settled by any later packet |
| `Services.RouteOfTopicOf` | services/index.js:22-36 | the `switch` picks a handler exactly when the topic is that handler's own topic; every other value is unknown |
| `Services.HandleGetAllTasks` | services/index.js:49-57 | exactly one reply, to the sender, on `API/GET/getAllTasks:response`, carrying `{ tasks }` on success and `{ error: message }` on failure |
| `Services.RunInsert` | services/index.js:23-29 | a statement that could not be built issues nothing and logs an error; a built one is issued exactly once, and an error is logged exactly when the database rejects it; no insert replies |
| `Services.OnMessage` | services/index.js:19-41 | every packet is handled without escaping the listener; a packet with no body, or a create or bulk packet with no `data`, issues nothing and logs an error; at most one reply, and one exactly for a `getAllTasks` topic, always to the sender on the reply topic; at most one statement, never together with a reply; an unknown topic only logs a warning |
| `Services.CreateTaskDispatch` | services/index.js:23-40 | a `createTask` packet does exactly what awaiting `createTask(data.task)` does: the statement it builds is issued once and an error is logged exactly when the database rejects it; a builder throw, or a packet without `data`, issues nothing and logs an error; it never replies |
| `Services.BulkCreateTasksDispatch` | services/index.js:27-40 | a `bulkCreateTasks` packet does exactly what awaiting `bulkCreateTasks(data.tasks)` does: the statement it builds is issued once and an error is logged exactly when the database rejects it; a builder throw, or a packet without `data`, issues nothing and logs an error; it never replies |
| `Services.GetAllTasksAnsweredOnce` | services/index.js:31-33 | a `getAllTasks` packet gets the one reply of `handleGetAllTasks`, inserts nothing, and logs an error exactly when the read failed |
| `Queries.CreateTask` | services/sql/queries.js:4-12 | throws exactly for `undefined`/`null`; the SQL is `INSERT INTO tasks (<the task's keys joined by ", ">) VALUES (<one ? per key>)` and the parameters are the task's values in key order |
| `Queries.AllEntries` | services/sql/queries.js:20-21 | the key lists of all tasks, one per task in order, or a `TypeError` exactly when some task is `undefined` or `null` |
| `Queries.BulkCreateTasks` | services/sql/queries.js:14-26 | `undefined`/`null` throw a `TypeError`; an empty array, `""`, a boolean or a number throws "No tasks to create"; a non-empty string throws a `TypeError` and an object never builds a statement; an array holding an `undefined`/`null` task throws a `TypeError`; a statement is built exactly for a non-empty array without such tasks; its column list is the first task's keys and its parameters are all tasks' values, task after task |
| `Queries.BulkParamsInTaskOrder` | services/sql/queries.js:21 | `flatMap(Object.values)` places each task's values, in its key order, right after those of the tasks before it, and the parameters hold nothing else |
| `Queries.CreateTaskPlaceholdersMatchParams` | services/sql/queries.js:5-9 | the VALUES part of a single insert is one parenthesised group with exactly as many `?` as there are parameters |
| `Queries.BulkPlaceholdersMatchParams` | services/sql/queries.js:19-23 | the bulk VALUES part has one parenthesised group per task, each with as many `?` as that task has keys, and as many `?` in all as there are parameters |
| `Queries.BulkOfOneIsCreate` | services/sql/queries.js:4-26 | a batch of one task issues the same statement and parameters as creating that task alone |
| `Errors.StatusCodeRoundTrip` | api/errors/index.js:1-53 | each error class is recovered from its status code, and a code names a class exactly when it is that class's code |
| `Errors.CodesAndNamesDistinct` | api/errors/index.js:1-53 | no two classes share a status code or a name |
| `ErrorsCatcher.Catch` | api/middlewares/errorsCatcher.js:1-27 | when headers were sent the error goes to `next` and nothing is written; otherwise the status is `statusCode` or 500, the message is `err.message` when truthy and the branch default otherwise, and the body code is `statusCode` or 500 |
| `ErrorsCatcher.CodeMatchesStatus` | api/middlewares/errorsCatcher.js:5-26 | the body code equals the HTTP status exactly when the code is one of the five listed codes, is 500, or is falsy |
| `ErrorsCatcher.UnlistedStatusReportsInternalCode` | api/middlewares/errorsCatcher.js:23-25 | an error with status 409 is answered with HTTP 409 and body code 500 |
| `ErrorsCatcher.BranchOfStatusCode` | api/middlewares/errorsCatcher.js:7-22 | each class's own status code lands on that class's branch of the `switch` |
| `ErrorsCatcher.AppErrorResponse` | api/middlewares/errorsCatcher.js:5-26 | an instance of any of the six classes is answered with its own code as status and body code, with its message unchanged or, when empty, its class's default |
| `AuthController.Handle` | api/controllers/authController.js:13-28 | the tasks model is called exactly when the body, `username` and `pass` are all truthy; otherwise a `BadRequestError` with the built message goes to `next`, or the `TypeError` of reading a field of a missing body |
| `AuthController.SigninRaisesAsLogin` | api/controllers/authController.js:30-45 | `signin` rejects the same bodies as `login`, with the same error |
| `AuthController.MessageKeptIffFlagged` | api/controllers/authController.js:20-21 | a message is kept exactly when some pair carrying it is flagged `isErr` |
| `AuthController.MessagesAppend` | api/controllers/authController.js:20-21 | filtering keeps the pairs' order: the messages of two lists joined are the two lists' messages joined |
| `AuthController.MessagesOfChecks` | api/controllers/authController.js:20-21 | filtering the three pairs keeps "Bad Request", then "Missing username" iff the username is truthy, then "Missing password" iff `pass` is truthy |
| `AuthController.BadRequestMessage` | api/controllers/authController.js:15-22 | splitting the message at newlines gives back exactly the selected lines, in table order |
| `AuthController.MessageStartsWithBadRequest` | api/controllers/authController.js:16-22 | the message opens with "Bad Request" and is exactly that when both fields are falsy |
| `AuthController.MessageForUsernameOnly` | api/controllers/authController.js:15-22 | any body with a truthy username and a falsy password gets exactly the message "Bad Request\nMissing username" |
| `AuthController.UsernameWithoutPassword` | api/controllers/authController.js:17 | a body with a username and no password is told "Bad Request\nMissing username" |
| `AuthController.EmptyBodyResponse` | tests/api/controllers/authController.test.js:32-36 | when the `errorsCatcher` middleware handles the error, an empty body is answered 400 with message "Bad Request" and code 400 |
| `InitDatabase.CurrentDbVersion` | services/sql/initDatabase.js:28-36 | the version is the first row's non-zero version, and 0 when the query fails, returns no row, or returns NULL or 0 |
| `InitDatabase.CreateDatabase` | services/sql/initDatabase.js:38-51 | never throws; success logs debug, a rejection mentioning "already exists" logs a warning, any other rejection an error |
| `InitDatabase.CreateDatabaseClassifiesRejections` | tests/services/sql/initDatabase.test.js:31-44 | the rejection "already exists" is a warning, "Mocked Database Error" is an error |
| `InitDatabase.CreateDatabaseWarnsWhenAlreadyExists` | services/sql/initDatabase.js:44-49 | a rejection whose message contains "already exists" anywhere is logged as a warning |
| `InitDatabase.RunMigrations` | services/sql/initDatabase.js:78-90 | the versions attempted are those above the current one, in list order, up to and including the first failure; a `(v, "Migration v" + v)` row is recorded for each applied version, in order, and for no other; it logs a debug line per recorded row and, when it stopped at a failure, one error line after them |
| `InitDatabase.Pending` | services/sql/initDatabase.js:79 | every version selected for migration is strictly above the current version |
| `InitDatabase.Above` | services/sql/initDatabase.js:79 | a version is listed exactly when some migration has it and it is above the current version |
| `InitDatabase.PendingIsAbove` | services/sql/initDatabase.js:78-80 | the versions the loop selects are exactly the newer ones, in list order |
| `InitDatabase.UnreadVersionRunsEveryMigration` | services/sql/initDatabase.js:28-36 | when the query fails, returns no row, or a NULL or 0 version, every migration with a positive version is pending, in list order |
| `InitDatabase.ApplyMigrations` | services/sql/initDatabase.js:28-91 | the database is created exactly when the probe fails with "does not exist"; reading the version logs an error exactly when the query fails or returns no row, and then yields 0; the loop starts from the version read and records only applied versions, logging a debug line per recorded row and one error line when it stopped at a failure |
| `InitDatabase.FreshDatabaseAttemptsFirstMigration` | tests/services/sql/initDatabase.test.js:48-55 | with no row in `db_versions`, the version read logs an error and gives 0, and migration 1 is attempted: recorded as "Migration v1" with a debug line exactly when it applies, logged as an error otherwise |
| `Services.SendResponseToCaller` | services/index.js:59-66 | the body goes back unchanged to the sender, on the `getAllTasks` request topic followed by ":response", whatever the packet's topic |
| `Interop.Delivered` | services/index.js:59-66 | the reply body arrives as an object whose `topic` is the reply topic and whose `data` is the reply payload |
| `Interop.ReplyTopicMatchesRequest` | services/index.js:63 | the responder's reply topic is the caller's request topic plus ":response", and the request topic itself does not contain ":response" |
| `Interop.ReplyMatchesWaitingCaller` | api/connectors/IPCConnector.js:24-27 | every reply of the service process is a reply topic looked up under `API/GET/getAllTasks`, so it matches a waiting caller exactly when a `getAllTasks` call is pending |
| `Interop.RequestIsAnsweredOnce` | api/connectors/IPCConnector.js:43 | the `{ topic }` request of `getAllTasks` gets exactly one reply from the service process and inserts nothing |
| `Interop.TasksNeverReachCaller` | services/index.js:52 | the success reply `{ tasks }` settles the waiting caller with `undefined`, because the caller reads `data.data` |
| `Interop.FailedReadSettlesCaller` | services/index.js:55 | the failure reply rejects the waiting caller with the error message when it is truthy, and resolves it with `undefined` otherwise |
| `Interop.RoundTrip` | api/connectors/IPCConnector.js:38-44 | a `getAllTasks` call followed by the service process's answer settles that call and clears its slot; after a successful read it resolves with `undefined` |
| `Interop.BulkBatchUnderTaskInsertsNothing` | api/connectors/IPCConnector.js:61 | a bulk request carrying its batch under `task`, as the API process names it, makes the service process insert nothing and log an error |

## Left out

- The PM2 bus itself (`launchBus`, `bus.on`, `sendDataToProcessId`, the `error` listener,
  `process.exit`): a foreign library with asynchronous delivery. Each delivered packet is
  one event of a sequence, and each reply is a value.
- Promises and `async`/`await`: a settlement is an outcome value (`Resolved`, `Rejected`).
- `IPCConnector.createTask` and `IPCConnector.bulkCreateTasks` (api/connectors/IPCConnector.js:51-78):
  they pass a topic where PM2 expects a process id. `createTask` is declared twice, and the
  second declaration only subscribes a listener. Only the payload field name of
  `bulkCreateTasks` is modelled, in `Interop.BulkBatchUnderTaskInsertsNothing`.
- `queries.getAllTasks` and every database and file-system call: their results are oracle
  parameters (`Fetch`, `DbOutcome`, `VersionQuery`, `Attempt`, the INSERT success flag).
- The pg connection settings and the SQL scripts' contents.
- Log text and arguments. The model records which lines are emitted for `createDatabase`,
  `getCurrentDbVersion`, the migration loop and the `process:msg` listener. It does not record
  the probe's silent `catch` in `applyMigrations`, the `getAllTasks` query's own error line
  in queries.js, or the bus and start-up logs.
- Express routing, `tasksController.js`, `authenticateJWT.js`, the server and process
  bootstrap: not part of this model.
- `IpcConnector.HandleResponse`: a rejection carries the raw `data.error` value; the
  `String` conversion done by `new Error(...)` is not modelled.
- `IpcConnector.HandleResponse`: the `#requests` object also inherits `Object.prototype`
  members, so a reply topic such as `constructor:response` would find a truthy entry there.
  The table is a map of stored callers only.
- `IpcConnector.AtMostOnce`: stated for runs in which every caller registers once. Callers
  are identities, not promises.
- `InitDatabase.ApplyMigrations`: probe and creation failures always carry a string message.
  An error without `message` makes `error.message.includes` throw out of `applyMigrations`,
  and that path is not modelled.
- `JsValues`: numbers are integers, with no NaN, infinities or fractions. Objects list their
  keys in insertion order; JavaScript's ordering of integer-like keys first is not modelled.
  An object is a list of fields, and objects with a repeated key, which JavaScript cannot
  build, are outside the model: what `Entries` and the column lists say about them does not
  describe the program.
- `JsValues.Get`: only plain property names are read. Array indices and `length` are
  handled by the code that needs them (`Queries.BulkCreateTasks`).
- `AuthController.EmptyBodyResponse`: the 400 answer holds only where `errorsCatcher` handles
  the error. The running API does not mount it: the handler in api/index.js:19-27 answers a
  `BadRequestError` with 500 and `{ error: err.message }`. That handler is not modelled.
- `AuthController.Handle` stops at the call into the tasks model. What `login`/`signin`
  return and the 200 response are decided by that model, which is not part of this model.

=== FILE: auth_controller.dfy ===
/**
  The guard shared by the `/login` and `/signin` handlers of the API process: a request
  body without a truthy `username` and `pass` raises a `BadRequestError` whose message
  lists lines chosen by three `(isErr, msg)` pairs, and the error is handed to `next`.
 */
module AuthController {
  import opened JsValues
  import opened JsStrings
  import Errors
  import ErrorsCatcher

  /** One `{ isErr, msg }` pair of the message table. */
  datatype Check = Check(isErr: bool, msg: string)

  /** `.filter(pair => pair.isErr).map(err => err.msg)` */
  function Messages(checks: seq<Check>): seq<string> {
    if |checks| == 0 then []
    else (if checks[0].isErr then [checks[0].msg] else []) + Messages(checks[1..])
  }

  /** A message is kept exactly when some pair carrying it is flagged. */
  lemma {:induction false} MessageKeptIffFlagged(checks: seq<Check>)
    ensures forall m :: m in Messages(checks) <==> exists c :: c in checks && c.isErr && c.msg == m
  {
    if |checks| > 0 {
      MessageKeptIffFlagged(checks[1..]);
      assert forall c :: c in checks <==> c == checks[0] || c in checks[1..];
    }
  }

  /** Filtering keeps the pairs' order: the messages of a concatenation are concatenated. */
  lemma {:induction false} MessagesAppend(a: seq<Check>, b: seq<Check>)
    ensures Messages(a + b) == Messages(a) + Messages(b)
  {
    if |a| > 0 {
      assert (a + b)[1..] == a[1..] + b;
      MessagesAppend(a[1..], b);
    } else {
      assert a + b == b;
    }
  }

  /** The three pairs, with the flags exactly as written: `!!req.body.username` and `!!req.body.pass`. */
  function Checks(body: Value): seq<Check>
    requires !Nullish(body)
  {
    [ Check(true, "Bad Request"),
      Check(Truthy(Get(body, "username")), "Missing username"),
      Check(Truthy(Get(body, "pass")), "Missing password") ]
  }

  /**
    The message joins the selected lines with newlines, none of which holds a newline itself,
    so the message splits back into exactly those lines: "Bad Request" first, then "Missing
    username" exactly when the body HAS a truthy `username`, then "Missing password" exactly
    when it HAS a truthy `pass`.
   */
  function BadRequestMessage(body: Value): (msg: string)
    requires !Nullish(body)
    ensures Split(msg, '\n') == SelectedLines(body)
  {
    MessagesOfChecks(body);
    NoNewlineInMessages();
    SplitJoin(SelectedLines(body), '\n');
    Join(Messages(Checks(body)), "\n")
  }

  /** The message lines in table order, as the flags select them. */
  function SelectedLines(body: Value): seq<string>
    requires !Nullish(body)
  {
    ["Bad Request"]
    + (if Truthy(Get(body, "username")) then ["Missing username"] else [])
    + (if Truthy(Get(body, "pass")) then ["Missing password"] else [])
  }

  lemma MessagesOfChecks(body: Value)
    requires !Nullish(body)
    ensures Messages(Checks(body)) == SelectedLines(body)
  {
    var c := Checks(body);
    assert c[1..][1..][1..] == [];
    assert Messages(c[1..][1..]) == (if c[2].isErr then [c[2].msg] else []) + Messages(c[1..][1..][1..]);
    assert Messages(c[1..]) == (if c[1].isErr then [c[1].msg] else []) + Messages(c[1..][1..]);
    assert Messages(c) == [c[0].msg] + Messages(c[1..]);
  }

  /** `!req.body || !req.body.username || !req.body.pass` */
  predicate Rejects(body: Value) {
    !Truthy(body) || !Truthy(Get(body, "username")) || !Truthy(Get(body, "pass"))
  }

  /** Which tasks-model method the handler calls once the guard lets the body through. */
  datatype Handler = Login | Signin

  /** What the thrown error is: the `BadRequestError`, or the `TypeError` of reading `undefined.username`. */
  datatype Raised = BadRequestError(error: Errors.AppError) | EngineError(thrown: JsError)

  datatype Outcome = CallsModel(handler: Handler, body: Value) | Next(raised: Raised)

  /** `login(req, res, next)` or `signin(req, res, next)`, up to the call into the tasks model. */
  function Handle(handler: Handler, body: Value): (r: Outcome)
    ensures r.CallsModel? <==> !Rejects(body)
    ensures r.CallsModel? ==> r == CallsModel(handler, body)
    ensures r.Next? && !Nullish(body) ==> r.raised == BadRequestError(Errors.AppError(Errors.BadRequest, BadRequestMessage(body)))
    ensures r.Next? && Nullish(body) ==> r.raised == EngineError(TypeError)
  {
    if !Rejects(body) then CallsModel(handler, body)
    else if Nullish(body) then Next(EngineError(TypeError))
    else Next(BadRequestError(Errors.AppError(Errors.BadRequest, BadRequestMessage(body))))
  }

  /**
    `signin` raises exactly what `login` raises for the same body. One `Handle` models both
    handlers because their guards (api/controllers/authController.js:15-22 and :32-39) are the
    same text; they differ only in the tasks-model method they call afterwards.
   */
  lemma SigninRaisesAsLogin(body: Value)
    ensures Handle(Signin, body).Next? <==> Handle(Login, body).Next?
    ensures Handle(Signin, body).Next? ==> Handle(Signin, body) == Handle(Login, body)
  {
  }

  lemma NoNewlineInMessages()
    ensures '\n' !in "Bad Request" && '\n' !in "Missing username" && '\n' !in "Missing password"
  {
  }

  /** The message always opens with "Bad Request", and is exactly that when both fields are missing. */
  lemma MessageStartsWithBadRequest(body: Value)
    requires !Nullish(body)
    ensures |BadRequestMessage(body)| >= 11 && BadRequestMessage(body)[..11] == "Bad Request"
    ensures !Truthy(Get(body, "username")) && !Truthy(Get(body, "pass")) ==> BadRequestMessage(body) == "Bad Request"
  {
    var lines := SelectedLines(body);
    MessagesOfChecks(body);
    assert lines[0] == "Bad Request";
    JoinStartsWithFirst(lines, "\n");
  }

  /**
    A body carrying a username but no password is told its username is missing: the flag
    includes a line when the field is present.
   */
  lemma UsernameWithoutPassword()
    ensures var body := Obj([Field("username", Str("user"))]);
            Handle(Login, body) == Next(BadRequestError(Errors.AppError(Errors.BadRequest, "Bad Request\nMissing username")))
  {
    var fields := [Field("username", Str("user"))];
    assert "username" != "pass" by { assert "username"[0] != "pass"[0]; }
    assert fields[1..] == [];
    assert Lookup(fields, "pass") == Undefined;
    assert Lookup(fields, "username") == Str("user");
    MessageForUsernameOnly(Obj(fields));
  }

  /** The message for a body with a truthy username and a falsy password. */
  lemma MessageForUsernameOnly(body: Value)
    requires !Nullish(body) && Truthy(Get(body, "username")) && !Truthy(Get(body, "pass"))
    ensures BadRequestMessage(body) == "Bad Request\nMissing username"
  {
    var lines := SelectedLines(body);
    MessagesOfChecks(body);
    assert lines == ["Bad Request", "Missing username"];
    JoinPair("Bad Request", "Missing username", "\n");
    UsernameOnlyText();
  }

  lemma UsernameOnlyText()
    ensures "Bad Request" + "\n" + "Missing username" == "Bad Request\nMissing username"
  {
  }

  /**
    When the `errorsCatcher` middleware handles the error, an empty JSON body is answered 400
    with the message "Bad Request" and code 400.
   */
  lemma EmptyBodyResponse()
    ensures var r := Handle(Login, Obj([]));
            r.Next? && r.raised.BadRequestError? &&
            ErrorsCatcher.Catch(ErrorsCatcher.FromAppError(r.raised.error), false) ==
              ErrorsCatcher.Responded(Num(400), ErrorsCatcher.Body(Str("Bad Request"), Num(400)))
  {
    MessageStartsWithBadRequest(Obj([]));
    ErrorsCatcher.AppErrorResponse(Handle(Login, Obj([])).raised.error);
  }
}

=== FILE: errors.dfy ===
/**
  The six HTTP error classes of the API process. Each is an `Error` with a fixed `name`
  and `statusCode`; the constructor passes its message to `Error` unchanged.
 */
module Errors {
  import opened JsValues

  datatype Kind = BadRequest | Unauthorized | Forbidden | NotFound | MethodNotAllowed | InternalServer

  /** An instance `new <Kind>Error(message)`. */
  datatype AppError = AppError(kind: Kind, message: string)

  /** The `name` each constructor sets. */
  function Name(k: Kind): string {
    match k
    case BadRequest => "BadRequestError"
    case Unauthorized => "UnauthorizedError"
    case Forbidden => "ForbiddenError"
    case NotFound => "NotFoundError"
    case MethodNotAllowed => "MethodNotAllowedError"
    case InternalServer => "InternalServerError"
  }

  /** The `statusCode` each constructor sets. */
  function StatusCode(k: Kind): int {
    match k
    case BadRequest => 400
    case Unauthorized => 401
    case Forbidden => 403
    case NotFound => 404
    case MethodNotAllowed => 405
    case InternalServer => 500
  }

  /** The error class that carries a given status code, if any. */
  function KindOfStatus(code: int): Option<Kind> {
    if code == 400 then Some(BadRequest)
    else if code == 401 then Some(Unauthorized)
    else if code == 403 then Some(Forbidden)
    else if code == 404 then Some(NotFound)
    else if code == 405 then Some(MethodNotAllowed)
    else if code == 500 then Some(InternalServer)
    else None
  }

  /** Every class is recovered from its status code, and only the six codes name a class. */
  lemma StatusCodeRoundTrip(k: Kind, code: int)
    ensures KindOfStatus(StatusCode(k)) == Some(k)
    ensures KindOfStatus(code) == Some(k) <==> StatusCode(k) == code
  {
    match k
    case BadRequest =>
    case Unauthorized =>
    case Forbidden =>
    case NotFound =>
    case MethodNotAllowed =>
    case InternalServer =>
  }

  /** The six status codes are pairwise distinct, and so are the six names. */
  lemma CodesAndNamesDistinct(k1: Kind, k2: Kind)
    ensures StatusCode(k1) == StatusCode(k2) ==> k1 == k2
    ensures Name(k1) == Name(k2) ==> k1 == k2
  {
    StatusCodeRoundTrip(k1, StatusCode(k2));
    if Name(k1) == Name(k2) {
      assert Name(k1)[..3] == Name(k2)[..3];
      assert |Name(k1)| == |Name(k2)|;
    }
  }
}

=== FILE: errors_catcher.dfy ===
/**
  The Express error middleware of the API process: it turns a caught error into an HTTP
  status and a JSON body `{ message, code }`, unless the response has already started.
 */
module ErrorsCatcher {
  import opened JsValues
  import Errors

  /** The two members of the caught error the middleware reads. */
  datatype Caught = Caught(statusCode: Value, message: Value)

  /** The JSON body `{ message, code }`. */
  datatype Body = Body(message: Value, code: Value)

  datatype Handling = PassedToNext | Responded(status: Value, body: Body)

  /** The `switch (err.statusCode)` branch, named after the error class its code belongs to. */
  function Branch(statusCode: Value): Errors.Kind {
    if statusCode == Num(400) then Errors.BadRequest
    else if statusCode == Num(401) then Errors.Unauthorized
    else if statusCode == Num(403) then Errors.Forbidden
    else if statusCode == Num(404) then Errors.NotFound
    else if statusCode == Num(405) then Errors.MethodNotAllowed
    else Errors.InternalServer
  }

  /** The message each branch falls back on when `err.message` is falsy (the spelling is the source's). */
  function DefaultMessage(k: Errors.Kind): string {
    match k
    case BadRequest => "Bad Request"
    case Unauthorized => "Unauthorized"
    case Forbidden => "Forbidden"
    case NotFound => "Not Found"
    case MethodNotAllowed => "Methode Not Allowed"
    case InternalServer => "Internal Server Error"
  }

  /** The error middleware `(err, req, res, next)`. */
  function Catch(err: Caught, headersSent: bool): (h: Handling)
    ensures h.PassedToNext? <==> headersSent
    ensures h.Responded? ==> h.status == (if Truthy(err.statusCode) then err.statusCode else Num(500))
    ensures h.Responded? && Truthy(err.message) ==> h.body.message == err.message
    ensures h.Responded? && !Truthy(err.message) ==> h.body.message == Str(DefaultMessage(Branch(err.statusCode)))
    ensures h.Responded? ==> (h.body.code == err.statusCode || h.body.code == Num(500))
  {
    if headersSent then PassedToNext
    else
      var status := if Truthy(err.statusCode) then err.statusCode else Num(500);
      var message := (d: string) => if Truthy(err.message) then err.message else Str(d);
      match Branch(err.statusCode)
      case BadRequest => Responded(status, Body(message("Bad Request"), err.statusCode))
      case Unauthorized => Responded(status, Body(message("Unauthorized"), err.statusCode))
      case Forbidden => Responded(status, Body(message("Forbidden"), err.statusCode))
      case NotFound => Responded(status, Body(message("Not Found"), err.statusCode))
      case MethodNotAllowed => Responded(status, Body(message("Methode Not Allowed"), err.statusCode))
      case InternalServer => Responded(status, Body(message("Internal Server Error"), Num(500)))
  }

  /**
    The body's `code` repeats the HTTP status exactly when the code is one of the five listed
    ones, is 500 itself, or is falsy so that both fall back on 500.
   */
  lemma CodeMatchesStatus(err: Caught)
    ensures var h := Catch(err, false);
            h.body.code == h.status <==>
              Branch(err.statusCode) != Errors.InternalServer || !Truthy(err.statusCode) || err.statusCode == Num(500)
  {
  }

  /** A status the switch does not list, such as 409, is sent as the HTTP status while the body says 500. */
  lemma UnlistedStatusReportsInternalCode()
    ensures Catch(Caught(Num(409), Str("Conflict")), false) == Responded(Num(409), Body(Str("Conflict"), Num(500)))
  {
  }

  /** The branch a class's own status code lands on is that class. */
  lemma BranchOfStatusCode(k: Errors.Kind)
    ensures Branch(Num(Errors.StatusCode(k))) == k
  {
  }

  /** How an instance of one of the six error classes reaches the middleware. */
  function FromAppError(e: Errors.AppError): Caught {
    Caught(Num(Errors.StatusCode(e.kind)), Str(e.message))
  }

  /**
    Every error class is answered with its own status code, both as the HTTP status and as
    the body's `code`, with its message or, when that is empty, its class's default message.
   */
  lemma AppErrorResponse(e: Errors.AppError)
    ensures Catch(FromAppError(e), false) ==
            Responded(Num(Errors.StatusCode(e.kind)),
                      Body(Str(if e.message != "" then e.message else DefaultMessage(e.kind)),
                           Num(Errors.StatusCode(e.kind))))
  {
    BranchOfStatusCode(e.kind);
  }
}

=== FILE: init_database.dfy ===
/**
  Database start-up in the service process: reading the current schema version, creating
  the database when the probe says it does not exist, and applying the migrations newer
  than the current version in list order until the first one fails.

  Every database call and file read is an oracle: the model is told whether it succeeded
  and, if not, the error's message.
 */
module InitDatabase {
  import opened JsValues
  import opened JsStrings

  /** How a database call (or the file read before it) completed. */
  datatype DbOutcome = Succeeded | Failed(message: string)

  /** The answer to `SELECT MAX(version) as version FROM db_versions`: each row's `version`, `None` for NULL. */
  datatype VersionQuery = VersionRows(rows: seq<Option<int>>) | VersionQueryFailed(message: string)

  datatype LogLevel = LoggedDebug | LoggedWarning | LoggedError

  /**
    `getCurrentDbVersion()` logs an error exactly when it lands in its `catch`: the query
    fails, or there is no row and reading `version` of `undefined` throws. A NULL version
    is read without throwing and falls back to 0 silently.
   */
  predicate VersionReadThrows(q: VersionQuery) {
    q.VersionQueryFailed? || |q.rows| == 0
  }

  /**
    `getCurrentDbVersion()`: the first row's version, or 0 when it is NULL or 0, when there
    is no row (reading `version` of `undefined` throws and is caught), or when the query fails.
   */
  function CurrentDbVersion(q: VersionQuery): (v: int)
    ensures q.VersionQueryFailed? ==> v == 0
    ensures q.VersionRows? && |q.rows| > 0 && q.rows[0].Some? ==> v == q.rows[0].value
    ensures v != 0 <==> q.VersionRows? && |q.rows| > 0 && q.rows[0].Some? && q.rows[0].value != 0
  {
    match q
    case VersionQueryFailed(_) => 0
    case VersionRows(rows) =>
      if |rows| == 0 then 0
      else match rows[0]
        case None => 0
        case Some(version) => if version != 0 then version else 0
  }

  /** `createDatabase()`: never throws; a failure is a warning when the database already exists, an error otherwise. */
  function CreateDatabase(script: DbOutcome): (level: LogLevel)
    ensures level == LoggedDebug <==> script.Succeeded?
    ensures level == LoggedWarning <==> script.Failed? && Contains(script.message, "already exists")
  {
    match script
    case Succeeded => LoggedDebug
    case Failed(message) => if Contains(message, "already exists") then LoggedWarning else LoggedError
  }

  /** A rejection saying the database already exists is a warning; any other message is an error. */
  lemma CreateDatabaseClassifiesRejections()
    ensures CreateDatabase(Failed("already exists")) == LoggedWarning
    ensures CreateDatabase(Failed("Mocked Database Error")) == LoggedError
  {
    assert OccursAt("already exists", "already exists", 0);
    assert 'l' !in "Mocked Database Error";
    NotContainedWithoutChar("Mocked Database Error", "already exists", 1);
  }

  /** Whatever surrounds it, "already exists" in a rejection's message makes it a warning. */
  lemma CreateDatabaseWarnsWhenAlreadyExists(before: string, after: string)
    ensures CreateDatabase(Failed(before + "already exists" + after)) == LoggedWarning
  {
    ContainsInfix(before, "already exists", after);
  }

  /** `createDatabase` runs only when the probe query fails because the table does not exist. */
  predicate ProbeCreatesDatabase(probe: DbOutcome) {
    probe.Failed? && Contains(probe.message, "does not exist")
  }

  /** One entry of `SQLVersions`. */
  datatype Migration = Migration(version: nat, script: string)

  const SqlVersions := [Migration(1, "scripts/001_initial_setup.sql")]

  /** How applying one migration went: reading its script, running it, then recording its version. */
  datatype Attempt = ReadFailed | ScriptFailed | RecordFailed | Applied

  /** A row inserted into `db_versions`. */
  datatype VersionRow = VersionRow(version: nat, description: string)

  function Description(version: nat): string {
    "Migration v" + NatToString(version)
  }

  /** The rows recorded for a sequence of successfully applied versions. */
  function Rows(versions: seq<nat>): (rows: seq<VersionRow>)
    ensures |rows| == |versions|
  {
    seq(|versions|, i requires 0 <= i < |versions| => VersionRow(versions[i], Description(versions[i])))
  }

  /** The versions newer than `current`, in list order. */
  function Pending(migrations: seq<Migration>, current: int): (vs: seq<nat>)
    ensures forall v :: v in vs ==> v > current
  {
    if |migrations| == 0 then []
    else
      var last := migrations[|migrations| - 1];
      Pending(migrations[..|migrations| - 1], current) + (if last.version > current then [last.version] else [])
  }

  /**
    The versions newer than `current`, in list order, read front to back: a reference for
    `Pending`, which builds the same list from the back.
   */
  function Above(migrations: seq<Migration>, current: int): (vs: seq<nat>)
    ensures forall v :: v in vs <==> exists m :: m in migrations && m.version == v && v > current
  {
    if |migrations| == 0 then []
    else
      var first := migrations[0];
      var rest := Above(migrations[1..], current);
      assert forall m :: m in migrations[1..] ==> m in migrations;
      assert forall m :: m in migrations ==> m == first || m in migrations[1..];
      (if first.version > current then [first.version] else []) + rest
  }

  lemma {:induction false} AboveLast(migrations: seq<Migration>, current: int)
    requires |migrations| > 0
    ensures var last := migrations[|migrations| - 1];
            Above(migrations, current)
              == Above(migrations[..|migrations| - 1], current) + (if last.version > current then [last.version] else [])
    decreases |migrations|
  {
    if |migrations| > 1 {
      AboveLast(migrations[1..], current);
      assert migrations[1..][..|migrations| - 2] == migrations[..|migrations| - 1][1..];
    }
  }

  /** `Pending` and `Above` agree: the pending versions are exactly the newer ones, in list order. */
  lemma {:induction false} PendingIsAbove(migrations: seq<Migration>, current: int)
    ensures Pending(migrations, current) == Above(migrations, current)
    decreases |migrations|
  {
    if |migrations| > 0 {
      PendingIsAbove(migrations[..|migrations| - 1], current);
      AboveLast(migrations, current);
    }
  }

  /**
    When no version can be read (the query fails, returns no row, or a NULL or 0 version),
    every migration with a positive version is pending, in list order.
   */
  lemma UnreadVersionRunsEveryMigration(q: VersionQuery, migrations: seq<Migration>)
    requires q.VersionQueryFailed? || |q.rows| == 0 || q.rows[0] == None || q.rows[0] == Some(0)
    ensures CurrentDbVersion(q) == 0
    ensures Pending(migrations, CurrentDbVersion(q)) == Above(migrations, 0)
  {
    PendingIsAbove(migrations, 0);
  }

  lemma {:induction false} PendingPrefix(migrations: seq<Migration>, current: int, i: nat)
    requires i <= |migrations|
    ensures Pending(migrations[..i], current) <= Pending(migrations, current)
    decreases |migrations|
  {
    if i < |migrations| {
      var init := migrations[..|migrations| - 1];
      assert init[..i] == migrations[..i];
      PendingPrefix(init, current, i);
    } else {
      assert migrations[..i] == migrations;
    }
  }

  /**
    The outcome of the migration loop: the versions attempted are the pending ones, in
    order, up to and including the first whose attempt fails (all of them when none
    fails), and a `db_versions` row is recorded for each applied version, in that order.
   */
  predicate StopsAtFirstFailure(migrations: seq<Migration>, current: int, attempt: nat -> Attempt,
                                attempted: seq<nat>, recorded: seq<VersionRow>)
  {
    && attempted <= Pending(migrations, current)
    && (forall j :: 0 <= j < |attempted| - 1 ==> attempt(attempted[j]) == Applied)
    && (|attempted| < |Pending(migrations, current)| ==>
          |attempted| > 0 && attempt(attempted[|attempted| - 1]) != Applied)
    && recorded == Rows(if |attempted| > 0 && attempt(attempted[|attempted| - 1]) != Applied
                        then attempted[..|attempted| - 1] else attempted)
  }

  /** `n` debug lines, one per applied migration. */
  function Debugs(n: nat): (logs: seq<LogLevel>)
    ensures |logs| == n && forall j :: 0 <= j < n ==> logs[j] == LoggedDebug
  {
    if n == 0 then [] else Debugs(n - 1) + [LoggedDebug]
  }

  /**
    The migration loop. It attempts exactly the pending versions, in order, up to and
    including the first whose attempt fails, and records a `db_versions` row for each
    version it applied, in the same order. It logs a debug line per recorded row and,
    when it stopped at a failure, one error line after them.
   */
  method RunMigrations(migrations: seq<Migration>, current: int, attempt: nat -> Attempt)
    returns (attempted: seq<nat>, recorded: seq<VersionRow>, logs: seq<LogLevel>)
    ensures StopsAtFirstFailure(migrations, current, attempt, attempted, recorded)
    ensures logs == Debugs(|recorded|) + (if |recorded| < |attempted| then [LoggedError] else [])
  {
    attempted, recorded, logs := [], [], [];
    var i := 0;
    while i < |migrations|
      invariant 0 <= i <= |migrations|
      invariant attempted == Pending(migrations[..i], current)
      invariant forall j :: 0 <= j < |attempted| ==> attempt(attempted[j]) == Applied
      invariant recorded == Rows(attempted)
      invariant logs == Debugs(|recorded|)
    {
      var m := migrations[i];
      assert migrations[..i + 1][..i] == migrations[..i];
      if m.version > current {
        attempted := attempted + [m.version];
        if attempt(m.version) != Applied {
          PendingPrefix(migrations, current, i + 1);
          PendingPrefix(migrations, current, i);
          assert attempted[..|attempted| - 1] == Pending(migrations[..i], current);
          logs := logs + [LoggedError];
          break;
        }
        recorded := recorded + [VersionRow(m.version, Description(m.version))];
        logs := logs + [LoggedDebug];
      }
      i := i + 1;
    }
    if i == |migrations| {
      assert migrations[..i] == migrations;
    }
  }

  /** What `applyMigrations()` did. */
  datatype MigrationRun = MigrationRun(
    createLog: Option<LogLevel>,   // the log of `createDatabase`, when it ran
    versionLogged: bool,           // whether reading the version logged an error
    current: int,                  // the version read before the loop
    attempted: seq<nat>,
    recorded: seq<VersionRow>,
    loopLogs: seq<LogLevel>)       // the migration loop's log lines, in order

  /** `applyMigrations()`: probe, maybe create, read the version, then run the migration loop. */
  method ApplyMigrations(probe: DbOutcome, create: DbOutcome, versionQuery: VersionQuery, attempt: nat -> Attempt)
    returns (run: MigrationRun)
    ensures run.createLog.Some? <==> ProbeCreatesDatabase(probe)
    ensures run.createLog.Some? ==> run.createLog.value == CreateDatabase(create)
    ensures run.current == CurrentDbVersion(versionQuery)
    ensures run.versionLogged <==> versionQuery.VersionQueryFailed? || |versionQuery.rows| == 0
    ensures run.versionLogged ==> run.current == 0
    ensures run.loopLogs == Debugs(|run.recorded|) + (if |run.recorded| < |run.attempted| then [LoggedError] else [])
    ensures StopsAtFirstFailure(SqlVersions, run.current, attempt, run.attempted, run.recorded)
    ensures forall v :: v in run.attempted ==> v > run.current
    ensures forall r :: r in run.recorded ==> r.version in run.attempted && attempt(r.version) == Applied
  {
    var createLog := None;
    if ProbeCreatesDatabase(probe) {
      createLog := Some(CreateDatabase(create));
    }
    var versionLogged := VersionReadThrows(versionQuery);
    var current := CurrentDbVersion(versionQuery);
    var attempted, recorded, logs := RunMigrations(SqlVersions, current, attempt);
    assert forall v :: v in attempted ==> v in Pending(SqlVersions, current);
    run := MigrationRun(createLog, versionLogged, current, attempted, recorded, logs);
  }

  /**
    On an empty `db_versions` table (no row comes back), reading the version throws and is
    logged, the version is 0, so the first migration is attempted; it is recorded as
    "Migration v1", with a debug line, exactly when it applies, and logged as an error otherwise.
   */
  method FreshDatabaseAttemptsFirstMigration(attempt: nat -> Attempt) returns (run: MigrationRun)
    ensures run.versionLogged && run.current == 0
    ensures run.loopLogs == (if attempt(1) == Applied then [LoggedDebug] else [LoggedError])
    ensures run.attempted == [1]
    ensures attempt(1) == Applied <==> run.recorded == [VersionRow(1, "Migration v1")]
    ensures attempt(1) != Applied <==> run.recorded == []
  {
    run := ApplyMigrations(Succeeded, Succeeded, VersionRows([]), attempt);
    FirstMigrationPending();
    FirstMigrationRow();
    assert run.attempted == [1];
    assert [1][..0] == [];
  }

  lemma FirstMigrationPending()
    ensures Pending(SqlVersions, 0) == [1]
  {
    assert SqlVersions[..0] == [];
  }

  lemma FirstMigrationRow()
    ensures Rows([1]) == [VersionRow(1, "Migration v1")]
  {
    assert NatToString(1) == "1";
    assert Description(1) == "Migration v1";
  }
}

=== FILE: interop.dfy ===
/**
  The two processes together: the reply body the service process puts on the bus, as the
  API process's handler receives it, and the request body the API process sends, as the
  service process's listener receives it.
 */
module Interop {
  import opened JsValues
  import opened JsStrings
  import IpcConnector
  import Services

  /** The `data` of a `process:msg` packet: `{ topic, data }`. */
  function Envelope(topic: string, data: Value): Value {
    Obj([Field("topic", Str(topic)), Field("data", data)])
  }

  /** A reply of the service process, as the body the API process's handler reads. */
  function Delivered(r: Services.Reply): (msg: Value)
    ensures msg.Obj? && Get(msg, "topic") == Str(r.topic) && IpcConnector.Payload(msg) == r.data
  {
    var fields := [Field("topic", Str(r.topic)), Field("data", r.data)];
    assert "topic" != "data" by { assert "topic"[0] != "data"[0]; }
    assert fields[1..] == [Field("data", r.data)];
    assert Lookup(fields, "data") == r.data;
    Envelope(r.topic, r.data)
  }

  /** The body `{ topic }` that `getAllTasks` sends to the service process. */
  const GetAllTasksRequest := Obj([Field("topic", Str(IpcConnector.GetAllTasksTopic))])

  /** The reply topic of the service process is the caller's request topic followed by ":response". */
  lemma ReplyTopicMatchesRequest()
    ensures Services.ResponseTopic == IpcConnector.GetAllTasksTopic + IpcConnector.ResponseSuffix
    ensures Services.GetAllTasksTopic == IpcConnector.GetAllTasksTopic
    ensures !Contains(IpcConnector.GetAllTasksTopic, IpcConnector.ResponseSuffix)
  {
    assert ':' !in IpcConnector.GetAllTasksTopic;
    NotContainedWithoutChar(IpcConnector.GetAllTasksTopic, IpcConnector.ResponseSuffix, 0);
  }

  /**
    Every reply of the service process is looked up under the `getAllTasks` request topic,
    so it matches a waiting caller exactly when a `getAllTasks` call is pending.
   */
  lemma ReplyMatchesWaitingCaller(t: IpcConnector.Table, r: Services.Reply)
    requires r.topic == Services.ResponseTopic
    ensures IpcConnector.ReplyTopic(Delivered(r)) == Some(r.topic)
    ensures IpcConnector.ReplyKey(r.topic) == IpcConnector.GetAllTasksTopic
    ensures IpcConnector.Matches(t, Delivered(r)) <==> IpcConnector.GetAllTasksTopic in t
  {
    ReplyTopicMatchesRequest();
    IpcConnector.ReplyKeyOfRequestTopic(IpcConnector.GetAllTasksTopic);
    assert EndsWith(r.topic, IpcConnector.ResponseSuffix);
  }

  /** The request of `getAllTasks` reaches `handleGetAllTasks`, which answers it exactly once and inserts nothing. */
  lemma RequestIsAnsweredOnce(pmId: int, fetch: Services.Fetch, insertSucceeds: bool)
    ensures var packet := Services.Packet(pmId, GetAllTasksRequest);
            var h := Services.OnMessage(packet, fetch, insertSucceeds);
            && h.queries == []
            && h.replies == [Services.HandleGetAllTasks(packet, fetch)]
  {
    Services.GetAllTasksAnsweredOnce(Services.Packet(pmId, GetAllTasksRequest), fetch, insertSucceeds);
  }

  /**
    A successful read is answered with `{ tasks }`, but the caller resolves with
    `data.data`, which that body does not have: the waiting call settles with `undefined`,
    never with the tasks.
   */
  lemma TasksNeverReachCaller(t: IpcConnector.Table, packet: Services.Packet, tasks: Value)
    requires IpcConnector.GetAllTasksTopic in t
    ensures var msg := Delivered(Services.HandleGetAllTasks(packet, Services.Rows(tasks)));
            var id := t[IpcConnector.GetAllTasksTopic];
            IpcConnector.HandleResponse(t, msg)
              == IpcConnector.Step(t - {IpcConnector.GetAllTasksTopic}, IpcConnector.Resolved(id, Undefined))
  {
    var r := Services.HandleGetAllTasks(packet, Services.Rows(tasks));
    var msg := Delivered(r);
    ReplyMatchesWaitingCaller(t, r);
    var body := [Field("tasks", tasks)];
    assert IpcConnector.Payload(msg) == Obj(body);
    assert "tasks" != "error" && "tasks" != "data" by { assert "tasks"[0] != "error"[0] && "tasks"[0] != "data"[0]; }
    assert body[1..] == [];
    assert Get(Obj(body), "error") == Undefined && Get(Obj(body), "data") == Undefined;
    var s := IpcConnector.HandleResponse(t, msg);
    assert s.outcome.Resolved?;
  }

  /**
    A failed read is answered with `{ error: message }`: the caller is rejected with that
    message when it is truthy, and resolves with `undefined` when it is empty or missing.
   */
  lemma FailedReadSettlesCaller(t: IpcConnector.Table, packet: Services.Packet, message: Value)
    requires IpcConnector.GetAllTasksTopic in t
    ensures var msg := Delivered(Services.HandleGetAllTasks(packet, Services.FetchFailed(message)));
            var id := t[IpcConnector.GetAllTasksTopic];
            var s := IpcConnector.HandleResponse(t, msg);
            && s.table == t - {IpcConnector.GetAllTasksTopic}
            && (Truthy(message) ==> s.outcome == IpcConnector.Rejected(id, message))
            && (!Truthy(message) ==> s.outcome == IpcConnector.Resolved(id, Undefined))
  {
    var r := Services.HandleGetAllTasks(packet, Services.FetchFailed(message));
    ReplyMatchesWaitingCaller(t, r);
    ReplyTopicMatchesRequest();
  }

  /**
    The whole round trip: a `getAllTasks` call followed by the service process's answer
    settles that call and empties its slot, whatever else was waiting.
   */
  lemma RoundTrip(t: IpcConnector.Table, a: IpcConnector.CallId, packet: Services.Packet, fetch: Services.Fetch)
    ensures var msg := Delivered(Services.HandleGetAllTasks(packet, fetch));
            var r := IpcConnector.Run(t, [IpcConnector.Call(a), IpcConnector.Deliver(msg)]);
            && r.0 == t - {IpcConnector.GetAllTasksTopic}
            && |r.1| == 1 && r.1[0].Consumes() && r.1[0].id == a
            && (fetch.Rows? ==> r.1[0] == IpcConnector.Resolved(a, Undefined))
  {
    var msg := Delivered(Services.HandleGetAllTasks(packet, fetch));
    var t1 := IpcConnector.GetAllTasks(t, a);
    RunCallThenDeliver(t, a, msg);
    match fetch
    case Rows(tasks) => TasksNeverReachCaller(t1, packet, tasks);
    case FetchFailed(message) => FailedReadSettlesCaller(t1, packet, message);
    assert t1 - {IpcConnector.GetAllTasksTopic} == t - {IpcConnector.GetAllTasksTopic};
  }

  /** A call followed by one delivery: the delivery is handled against the table the call left. */
  lemma RunCallThenDeliver(t: IpcConnector.Table, a: IpcConnector.CallId, msg: Value)
    ensures var s := IpcConnector.HandleResponse(IpcConnector.GetAllTasks(t, a), msg);
            IpcConnector.Run(t, [IpcConnector.Call(a), IpcConnector.Deliver(msg)]) == (s.table, [s.outcome])
  {
    var events := [IpcConnector.Call(a), IpcConnector.Deliver(msg)];
    var t1 := IpcConnector.GetAllTasks(t, a);
    var s := IpcConnector.HandleResponse(t1, msg);
    assert events[1..] == [IpcConnector.Deliver(msg)];
    assert [IpcConnector.Deliver(msg)][1..] == [];
    assert IpcConnector.Run(s.table, []) == (s.table, []);
    assert [s.outcome] + [] == [s.outcome];
    assert IpcConnector.Run(t1, [IpcConnector.Deliver(msg)]) == (s.table, [s.outcome]);
  }

  /**
    A bulk request whose body carries the batch under `task`, the name the API process's
    `bulkCreateTasks` sends it under, rather than `tasks`: the service process reads
    `data.tasks` as `undefined`, builds no statement and logs the error.
   */
  lemma BulkBatchUnderTaskInsertsNothing(pmId: int, batch: Value, fetch: Services.Fetch, insertSucceeds: bool)
    ensures var body := Envelope(Services.BulkCreateTasksTopic, Obj([Field("task", batch)]));
            Services.OnMessage(Services.Packet(pmId, body), fetch, insertSucceeds)
              == Services.Handled([], [], Services.Errored)
  {
  }
}

=== FILE: ipc_connector.dfy ===
/**
  The caller side of the task bus, in the API process: a table of pending calls keyed by
  the TOPIC of the request (there is no per-call identity and no timeout), the registration
  `getAllTasks` performs, and the handler every `process:msg` packet goes through.

  A packet is represented by its `data` field, the body `{ topic, data }` that the sender
  put on the bus. The promise machinery is replaced by outcomes: which pending call, if any,
  a packet settled and with what.
 */
module IpcConnector {
  import opened JsValues
  import opened JsStrings

  /** Identity of one waiting caller: the `{ resolve, reject }` pair stored in the table. */
  type CallId = nat

  /** `#requests`: the waiting callers by request topic. */
  type Table = map<string, CallId>

  const GetAllTasksTopic := "API/GET/getAllTasks"
  const ResponseSuffix := ":response"

  /** What handling one delivered packet did. */
  datatype Outcome =
    | Ignored                              // no topic, or a topic that is not a reply topic
    | Faulted                              // threw before the table was consulted
    | NoPending                            // a reply for a key nobody waits on
    | Resolved(id: CallId, value: Value)   // resolve(data.data)
    | Rejected(id: CallId, reason: Value)  // reject(new Error(data.error))
    | Dropped(id: CallId)                  // entry deleted, then reading data.error threw
  {
    /** The matched entry was taken out of the table. */
    predicate Consumes() {
      Resolved? || Rejected? || Dropped?
    }
  }

  datatype Step = Step(table: Table, outcome: Outcome)

  /** `getAllTasks`: store the caller under the fixed topic, replacing whoever waited there. */
  function GetAllTasks(t: Table, id: CallId): (t': Table)
    ensures t'.Keys == t.Keys + {GetAllTasksTopic}
    ensures t'[GetAllTasksTopic] == id
    ensures forall k :: k in t && k != GetAllTasksTopic ==> t'[k] == t[k]
  {
    t[GetAllTasksTopic := id]
  }

  /** The topic of a packet body that the handler treats as a reply. */
  function ReplyTopic(msg: Value): Option<string> {
    if Nullish(msg) then None
    else match Get(msg, "topic")
      case Str(s) => if EndsWith(s, ResponseSuffix) then Some(s) else None
      case _ => None
  }

  /** The table key a reply topic is looked up under: the topic minus its first ":response". */
  function ReplyKey(topic: string): string {
    ReplaceFirst(topic, ResponseSuffix, "")
  }

  /** The reply carried by a packet body matches a waiting caller. */
  predicate Matches(t: Table, msg: Value) {
    ReplyTopic(msg).Some? && ReplyKey(ReplyTopic(msg).value) in t
  }

  /** The `data` member of a packet body. */
  function Payload(msg: Value): Value {
    if Nullish(msg) then Undefined else Get(msg, "data")
  }

  /** `#handleResponse(packet)`, for the body `packet.data`. */
  function HandleResponse(t: Table, msg: Value): (s: Step)
    ensures !Matches(t, msg) ==> s.table == t && !s.outcome.Consumes()
    ensures ReplyTopic(msg).None? ==> s.outcome.Ignored? || s.outcome.Faulted?
    ensures s.outcome.Faulted? <==> Nullish(msg) || (Truthy(Get(msg, "topic")) && !Get(msg, "topic").Str?)
    ensures s.outcome.Ignored? <==>
              !Nullish(msg) && (!Truthy(Get(msg, "topic"))
                                || (Get(msg, "topic").Str? && !EndsWith(Get(msg, "topic").s, ResponseSuffix)))
    ensures ReplyTopic(msg).Some? && !Matches(t, msg) ==> s.outcome == NoPending
    ensures Matches(t, msg) ==>
              var key := ReplyKey(ReplyTopic(msg).value);
              s.table == t - {key} && s.outcome.Consumes() && s.outcome.id == t[key]
    ensures s.outcome.Dropped? <==> Matches(t, msg) && Nullish(Payload(msg))
    ensures s.outcome.Rejected? <==>
              Matches(t, msg) && !Nullish(Payload(msg)) && Truthy(Get(Payload(msg), "error"))
    ensures s.outcome.Rejected? ==> s.outcome.reason == Get(Payload(msg), "error")
    ensures s.outcome.Resolved? ==> s.outcome.value == Get(Payload(msg), "data")
  {
    if Nullish(msg) then Step(t, Faulted)
    else
      var topic := Get(msg, "topic");
      var data := Get(msg, "data");
      if !Truthy(topic) then Step(t, Ignored)
      else if !topic.Str? then Step(t, Faulted)
      else if !EndsWith(topic.s, ResponseSuffix) then Step(t, Ignored)
      else
        var key := ReplyKey(topic.s);
        if key !in t then Step(t, NoPending)
        else
          var id := t[key];
          var rest := t - {key};
          match Prop(data, "error")
          case Threw(_) => Step(rest, Dropped(id))
          case Ok(error) =>
            if Truthy(error) then Step(rest, Rejected(id, error))
            else Step(rest, Resolved(id, Get(data, "data")))
  }

  /** A reply to a request topic that does not itself contain ":response" is looked up under that topic. */
  lemma ReplyKeyOfRequestTopic(topic: string)
    requires !Contains(topic, ResponseSuffix)
    ensures ReplyKey(topic + ResponseSuffix) == topic
  {
    var s := topic + ResponseSuffix;
    var n := |topic|;
    assert s[n..n + |ResponseSuffix|] == ResponseSuffix;
    assert OccursAt(s, ResponseSuffix, n);
    forall j | 0 <= j < n
      ensures !OccursAt(s, ResponseSuffix, j)
    {
      if j + |ResponseSuffix| <= n {
        assert s[j..j + |ResponseSuffix|] == topic[j..j + |ResponseSuffix|];
        assert !OccursAt(topic, ResponseSuffix, j);
      } else {
        // ':' opens the suffix and appears nowhere else in it, so a window that straddles
        // the end of `topic` holds a ':' where the suffix has none.
        assert s[j..j + |ResponseSuffix|][n - j] == s[n] == ':';
        assert ResponseSuffix[n - j] != ':';
      }
    }
    assert IndexOf(s, ResponseSuffix, 0) == Some(n);
    assert s[..n] == topic;
    assert s[n + |ResponseSuffix|..] == "";
  }

  /** Only the first ":response" is removed, so a topic carrying it twice keeps the second one. */
  lemma ReplyKeyRemovesFirstOccurrenceOnly()
    ensures ReplyKey("a:responseb:response") == "ab:response"
  {
    var s := "a:responseb:response";
    assert s[1..10] == ResponseSuffix;
    assert !OccursAt(s, ResponseSuffix, 0) by { assert s[0] != ':'; }
    assert IndexOf(s, ResponseSuffix, 0) == Some(1);
  }

  /** Once a reply has consumed its entry, a second copy of it finds nobody waiting. */
  lemma DuplicateReplyIsNoop(t: Table, msg: Value)
    requires HandleResponse(t, msg).outcome.Consumes()
    ensures var t' := HandleResponse(t, msg).table;
            HandleResponse(t', msg) == Step(t', NoPending)
  {
  }

  /** Handling a packet removes at most the matched key; every other waiting caller is untouched. */
  lemma OtherCallersUntouched(t: Table, msg: Value, k: string)
    requires k in t
    requires !Matches(t, msg) || k != ReplyKey(ReplyTopic(msg).value)
    ensures k in HandleResponse(t, msg).table
    ensures HandleResponse(t, msg).table[k] == t[k]
  {
  }

  /** A delivery on the bus, or a call to `getAllTasks` by the caller `id`. */
  datatype Event = Call(id: CallId) | Deliver(msg: Value)

  /** The table after a sequence of events, and the outcome of each delivery, in order. */
  function Run(t: Table, events: seq<Event>): (Table, seq<Outcome>)
    decreases |events|
  {
    if |events| == 0 then (t, [])
    else match events[0]
      case Call(id) => Run(GetAllTasks(t, id), events[1..])
      case Deliver(msg) =>
        var s := HandleResponse(t, msg);
        var r := Run(s.table, events[1..]);
        (r.0, [s.outcome] + r.1)
  }

  /** No caller waits under two topics. */
  ghost predicate Injective(t: Table) {
    forall k1, k2 :: k1 in t && k2 in t && t[k1] == t[k2] ==> k1 == k2
  }

  /** The callers in `events` are distinct and none of them is already waiting in `t`. */
  ghost predicate FreshCalls(t: Table, events: seq<Event>) {
    && (forall i :: 0 <= i < |events| && events[i].Call? ==> events[i].id !in t.Values)
    && (forall i, j :: 0 <= i < j < |events| && events[i].Call? && events[j].Call? ==>
          events[i].id != events[j].id)
  }

  function CallIds(events: seq<Event>): set<CallId> {
    set i | 0 <= i < |events| && events[i].Call? :: events[i].id
  }

  /** No caller is consumed by two outcomes. */
  ghost predicate ConsumedAtMostOnce(os: seq<Outcome>) {
    forall i, j :: 0 <= i < j < |os| && os[i].Consumes() && os[j].Consumes() ==> os[i].id != os[j].id
  }

  /** Registering a caller that is not waiting yet keeps every caller under one topic at most. */
  lemma RegisterKeepsInjective(t: Table, id: CallId)
    requires Injective(t)
    requires id !in t.Values
    ensures Injective(GetAllTasks(t, id))
  {
    var t1 := GetAllTasks(t, id);
    forall k1, k2 | k1 in t1 && k2 in t1 && k1 != k2
      ensures t1[k1] != t1[k2]
    {
      if k1 != GetAllTasksTopic && k2 != GetAllTasksTopic {
        assert t1[k1] == t[k1] && t1[k2] == t[k2];
      } else if k1 != GetAllTasksTopic {
        assert t1[k1] == t[k1] && t[k1] in t.Values;
      } else {
        assert t1[k2] == t[k2] && t[k2] in t.Values;
      }
    }
  }

  /** Freshness of the remaining callers survives a step that adds at most the first event's caller. */
  lemma FreshAfterStep(t: Table, t1: Table, events: seq<Event>)
    requires |events| >= 1
    requires FreshCalls(t, events)
    requires t1.Values <= t.Values + (if events[0].Call? then {events[0].id} else {})
    ensures FreshCalls(t1, events[1..])
  {
    var rest := events[1..];
    forall i | 0 <= i < |rest| && rest[i].Call?
      ensures rest[i].id !in t1.Values
    {
      assert rest[i] == events[i + 1];
    }
    forall i, j | 0 <= i < j < |rest| && rest[i].Call? && rest[j].Call?
      ensures rest[i].id != rest[j].id
    {
      assert rest[i] == events[i + 1] && rest[j] == events[j + 1];
    }
  }

  lemma CallIdsOfTail(events: seq<Event>)
    requires |events| >= 1
    ensures CallIds(events) == (if events[0].Call? then {events[0].id} else {}) + CallIds(events[1..])
  {
    var rest := events[1..];
    forall x | x in CallIds(events)
      ensures x in (if events[0].Call? then {events[0].id} else {}) + CallIds(rest)
    {
      var i :| 0 <= i < |events| && events[i].Call? && events[i].id == x;
      if i > 0 {
        assert rest[i - 1] == events[i];
      }
    }
    forall x | x in CallIds(rest)
      ensures x in CallIds(events)
    {
      var i :| 0 <= i < |rest| && rest[i].Call? && rest[i].id == x;
      assert events[i + 1] == rest[i];
    }
  }

  /** A caller already waiting does not call again later in a fresh run. */
  lemma WaitingCallerNotInTail(t: Table, events: seq<Event>, id: CallId)
    requires |events| >= 1
    requires FreshCalls(t, events)
    requires id in t.Values
    ensures id !in CallIds(events[1..])
  {
    var rest := events[1..];
    forall i | 0 <= i < |rest| && rest[i].Call?
      ensures rest[i].id != id
    {
      assert rest[i] == events[i + 1];
    }
  }

  /**
    Each waiting caller leaves the table at most once, so it is settled at most once, and
    only callers that were waiting or that called during the run are ever consumed.
   */
  lemma {:induction false} AtMostOnce(t: Table, events: seq<Event>)
    requires Injective(t)
    requires FreshCalls(t, events)
    ensures ConsumedAtMostOnce(Run(t, events).1)
    ensures forall o :: o in Run(t, events).1 && o.Consumes() ==> o.id in t.Values + CallIds(events)
    decreases |events|
  {
    if |events| > 0 {
      var rest := events[1..];
      CallIdsOfTail(events);
      match events[0]
      case Call(id) =>
        var t1 := GetAllTasks(t, id);
        assert t1.Values <= t.Values + {id};
        RegisterKeepsInjective(t, id);
        FreshAfterStep(t, t1, events);
        AtMostOnce(t1, rest);
      case Deliver(msg) =>
        var s := HandleResponse(t, msg);
        assert s.table.Values <= t.Values;
        FreshAfterStep(t, s.table, events);
        AtMostOnce(s.table, rest);
        var later := Run(s.table, rest).1;
        if s.outcome.Consumes() {
          // The consumed caller waited only under the matched key, which is now gone,
          // and it does not call again during the rest of the run.
          assert s.outcome.id in t.Values;
          assert s.outcome.id !in s.table.Values;
          WaitingCallerNotInTail(t, events, s.outcome.id);
        }
        ConsumedAtMostOnceCons(s.outcome, later);
    }
  }

  lemma ConsumedAtMostOnceCons(o: Outcome, later: seq<Outcome>)
    requires ConsumedAtMostOnce(later)
    requires o.Consumes() ==> forall o' :: o' in later && o'.Consumes() ==> o'.id != o.id
    ensures ConsumedAtMostOnce([o] + later)
  {
    var os := [o] + later;
    forall i, j | 0 <= i < j < |os| && os[i].Consumes() && os[j].Consumes()
      ensures os[i].id != os[j].id
    {
      assert os[j] == later[j - 1];
      if i > 0 {
        assert os[i] == later[i - 1];
      } else {
        assert os[j] in later;
      }
    }
  }

  /**
    Two outstanding `getAllTasks` calls: the second registration overwrites the first,
    whose caller is then never consumed by any later packet.
   */
  lemma OverwrittenCallNeverSettles(t: Table, a: CallId, b: CallId, rest: seq<Event>)
    requires Injective(t)
    requires FreshCalls(t, [Call(a), Call(b)] + rest)
    ensures forall o :: o in Run(t, [Call(a), Call(b)] + rest).1 && o.Consumes() ==> o.id != a
  {
    var events := [Call(a), Call(b)] + rest;
    var t1 := GetAllTasks(t, a);
    var t2 := GetAllTasks(t1, b);
    assert events[1..] == [Call(b)] + rest;
    assert ([Call(b)] + rest)[1..] == rest;
    assert Run(t, events) == Run(t2, rest);
    assert events[0].Call? && events[1].Call?;
    RegisterKeepsInjective(t, a);
    FreshAfterStep(t, t1, events);
    assert a in t1.Values;
    WaitingCallerNotInTail(t1, events[1..], a);
    RegisterKeepsInjective(t1, b);
    FreshAfterStep(t1, t2, events[1..]);
    assert a !in t2.Values;
    AtMostOnce(t2, rest);
  }
}

=== FILE: js_strings.dfy ===
/**
  The string methods the source calls — `indexOf`, `includes`, `endsWith`, `replace` with a
  string pattern, `Array.prototype.join` — together with the inverse and counting
  functions the model uses to state what the built strings contain.
 */
module JsStrings {
  import opened JsValues

  /** `pat` occurs in `s` at index `i`. */
  predicate OccursAt(s: string, pat: string, i: int) {
    0 <= i && i + |pat| <= |s| && s[i..i + |pat|] == pat
  }

  /** `s.indexOf(pat, from)`: the first index at or after `from` where `pat` occurs. */
  function IndexOf(s: string, pat: string, from: nat): (r: Option<nat>)
    decreases |s| - from
    ensures r.Some? ==> from <= r.value && OccursAt(s, pat, r.value)
    ensures r.Some? ==> forall j :: from <= j < r.value ==> !OccursAt(s, pat, j)
    ensures r.None? ==> forall j :: from <= j ==> !OccursAt(s, pat, j)
  {
    if from + |pat| > |s| then None
    else if s[from..from + |pat|] == pat then Some(from)
    else IndexOf(s, pat, from + 1)
  }

  /** `s.includes(pat)` */
  predicate Contains(s: string, pat: string) {
    IndexOf(s, pat, 0).Some?
  }

  /** A pattern holding a character that never appears in `s` does not occur in `s`. */
  lemma NotContainedWithoutChar(s: string, pat: string, k: nat)
    requires k < |pat| && pat[k] !in s
    ensures !Contains(s, pat)
  {
    forall i | 0 <= i && i + |pat| <= |s|
      ensures !OccursAt(s, pat, i)
    {
      assert s[i..i + |pat|][k] == s[i + k];
      assert s[i + k] in s;
    }
  }

  /** A pattern placed between any two strings is contained in the result. */
  lemma ContainsInfix(a: string, pat: string, b: string)
    ensures Contains(a + pat + b, pat)
  {
    var s := a + pat + b;
    assert s[|a|..|a| + |pat|] == pat;
    assert OccursAt(s, pat, |a|);
  }

  /** `s.endsWith(suffix)` */
  predicate EndsWith(s: string, suffix: string) {
    |suffix| <= |s| && s[|s| - |suffix|..] == suffix
  }

  /** `s.replace(pat, rep)` with a string pattern: only the first occurrence is replaced. */
  function ReplaceFirst(s: string, pat: string, rep: string): string {
    match IndexOf(s, pat, 0)
    case None => s
    case Some(i) => s[..i] + rep + s[i + |pat|..]
  }

  /** `parts.join(sep)` */
  function Join(parts: seq<string>, sep: string): string {
    if |parts| == 0 then ""
    else if |parts| == 1 then parts[0]
    else parts[0] + sep + Join(parts[1..], sep)
  }

  lemma JoinPair(a: string, b: string, sep: string)
    ensures Join([a, b], sep) == a + sep + b
  {
    assert [a, b][1..] == [b];
  }

  /** A joined string opens with its first part. */
  lemma JoinStartsWithFirst(parts: seq<string>, sep: string)
    requires |parts| >= 1
    ensures |Join(parts, sep)| >= |parts[0]| && Join(parts, sep)[..|parts[0]|] == parts[0]
  {
    if |parts| > 1 {
      assert Join(parts, sep) == parts[0] + (sep + Join(parts[1..], sep));
    }
  }

  /** `s.split(sep)` for a one-character separator: the pieces between separators. */
  function Split(s: string, sep: char): (parts: seq<string>)
    ensures |parts| >= 1
  {
    if |s| == 0 then [""]
    else
      var rest := Split(s[1..], sep);
      if s[0] == sep then [""] + rest else [[s[0]] + rest[0]] + rest[1..]
  }

  /** The number of occurrences of `c` in `s`. */
  function CountOf(c: char, s: string): nat {
    if |s| == 0 then 0 else (if s[0] == c then 1 else 0) + CountOf(c, s[1..])
  }

  /** The number of occurrences of `c` over all of `parts`. */
  function CountOfAll(c: char, parts: seq<string>): nat {
    if |parts| == 0 then 0 else CountOf(c, parts[0]) + CountOfAll(c, parts[1..])
  }

  lemma {:induction false} CountOfAppend(c: char, a: string, b: string)
    ensures CountOf(c, a + b) == CountOf(c, a) + CountOf(c, b)
  {
    if |a| == 0 {
      assert a + b == b;
    } else {
      assert (a + b)[0] == a[0];
      assert (a + b)[1..] == a[1..] + b;
      CountOfAppend(c, a[1..], b);
    }
  }

  lemma {:induction false} CountOfAbsent(c: char, s: string)
    requires c !in s
    ensures CountOf(c, s) == 0
  {
    if |s| > 0 {
      assert s[0] != c;
      assert forall k :: 0 <= k < |s| - 1 ==> s[1..][k] == s[k + 1];
      CountOfAbsent(c, s[1..]);
    }
  }

  /** Counting through a join: every part, plus one separator between each neighbouring pair. */
  lemma {:induction false} CountOfJoin(c: char, parts: seq<string>, sep: string)
    requires |parts| >= 1
    ensures CountOf(c, Join(parts, sep)) == CountOfAll(c, parts) + (|parts| - 1) * CountOf(c, sep)
  {
    if |parts| > 1 {
      var k := CountOf(c, sep);
      var rest := Join(parts[1..], sep);
      CountOfJoin(c, parts[1..], sep);
      CountOfAppend(c, parts[0] + sep, rest);
      CountOfAppend(c, parts[0], sep);
      assert Join(parts, sep) == parts[0] + sep + rest;
      assert CountOfAll(c, parts) == CountOf(c, parts[0]) + CountOfAll(c, parts[1..]);
      OneMoreSeparator(|parts| - 1, k);
    }
  }

  lemma OneMoreSeparator(m: int, k: int)
    ensures m * k == (m - 1) * k + k
  {
  }

  lemma {:induction false} SplitWithoutSeparator(a: string, sep: char)
    requires sep !in a
    ensures Split(a, sep) == [a]
  {
    if |a| > 0 {
      assert forall k :: 0 <= k < |a| - 1 ==> a[1..][k] == a[k + 1];
      SplitWithoutSeparator(a[1..], sep);
      assert [a[0]] + a[1..] == a;
    }
  }

  lemma {:induction false} SplitAtFirstSeparator(a: string, sep: char, b: string)
    requires sep !in a
    ensures Split(a + [sep] + b, sep) == [a] + Split(b, sep)
  {
    if |a| == 0 {
      assert a + [sep] + b == [sep] + b;
      assert ([sep] + b)[1..] == b;
    } else {
      assert (a + [sep] + b)[1..] == a[1..] + [sep] + b;
      assert forall k :: 0 <= k < |a| - 1 ==> a[1..][k] == a[k + 1];
      SplitAtFirstSeparator(a[1..], sep, b);
      assert [a[0]] + a[1..] == a;
    }
  }

  /** Splitting on the separator recovers the joined parts when none of them holds it. */
  lemma {:induction false} SplitJoin(parts: seq<string>, sep: char)
    requires |parts| >= 1
    requires forall i :: 0 <= i < |parts| ==> sep !in parts[i]
    ensures Split(Join(parts, [sep]), sep) == parts
  {
    if |parts| == 1 {
      SplitWithoutSeparator(parts[0], sep);
    } else {
      SplitJoin(parts[1..], sep);
      SplitAtFirstSeparator(parts[0], sep, Join(parts[1..], [sep]));
      assert parts == [parts[0]] + parts[1..];
    }
  }
}

=== FILE: js_values.dfy ===
/**
  The slice of JavaScript's value model that the two processes exchange and inspect:
  JSON-like values, truthiness, reading a named property, and the own enumerable
  entries that `Object.keys` / `Object.values` return.

  Numbers are integers (NaN, infinities and fractions are not modelled). An object is an
  ordered list of fields in enumeration order; reading a property returns the first
  field with that key, which is the JavaScript answer for objects whose keys are distinct.
 */
module JsValues {

  datatype Option<T> = None | Some(value: T)

  datatype Value =
    | Undefined
    | Null
    | Bool(b: bool)
    | Num(n: int)
    | Str(s: string)
    | Arr(items: seq<Value>)
    | Obj(fields: seq<Field>)

  datatype Field = Field(key: string, val: Value)

  /** What a statement can throw: a `TypeError` raised by the engine, or an `Error` with a message. */
  datatype JsError = TypeError | Error(message: string)

  /** The completion of an expression or a call: its value, or the error it threw. */
  datatype Result<T> = Ok(value: T) | Threw(error: JsError)

  /** `undefined` and `null`: the two values whose property reads throw. */
  predicate Nullish(v: Value) {
    v.Undefined? || v.Null?
  }

  /** JavaScript's ToBoolean, as used by `if (x)`, `!x`, `x || d` and `x && y`. */
  predicate Truthy(v: Value) {
    match v
    case Undefined => false
    case Null => false
    case Bool(b) => b
    case Num(n) => n != 0
    case Str(s) => s != ""
    case Arr(_) => true
    case Obj(_) => true
  }

  /** The value of the first field named `key`, or `undefined` when there is none. */
  function Lookup(fields: seq<Field>, key: string): (v: Value)
    ensures (forall i :: 0 <= i < |fields| ==> fields[i].key != key) ==> v == Undefined
    ensures forall i :: 0 <= i < |fields| && fields[i].key == key ==>
              (forall j :: 0 <= j < i ==> fields[j].key != key) ==> v == fields[i].val
  {
    if |fields| == 0 then Undefined
    else if fields[0].key == key then fields[0].val
    else Lookup(fields[1..], key)
  }

  /**
    `v.key` for a value whose property reads do not throw. Only plain names are read
    through `Get` in this model (never "length" nor an array index), and no primitive or
    array carries an own property under such a name.
   */
  function Get(v: Value, key: string): Value
    requires !Nullish(v)
  {
    if v.Obj? then Lookup(v.fields, key) else Undefined
  }

  /** `v.key`, including the `TypeError` that reading a property of `undefined` or `null` throws. */
  function Prop(v: Value, key: string): (r: Result<Value>)
    ensures r.Threw? <==> Nullish(v)
    ensures r.Ok? ==> r.value == Get(v, key)
  {
    if Nullish(v) then Threw(TypeError) else Ok(Get(v, key))
  }

  /** The decimal spelling of a natural number, as `String(n)` writes it. */
  function NatToString(n: nat): (s: string)
    ensures |s| >= 1
    ensures forall i :: 0 <= i < |s| ==> '0' <= s[i] <= '9'
  {
    if n < 10 then [DigitChar(n)] else NatToString(n / 10) + [DigitChar(n % 10)]
  }

  function DigitChar(d: nat): (c: char)
    requires d < 10
    ensures '0' <= c <= '9'
  {
    ['0', '1', '2', '3', '4', '5', '6', '7', '8', '9'][d]
  }

  /**
    The own enumerable entries of a value, in the order `Object.keys` and `Object.values`
    list them: the fields of an object, the indexed elements of an array or the characters
    of a string, and nothing for a boolean or a number. Both functions throw a `TypeError`
    for `undefined` and `null`.
   */
  function Entries(v: Value): (r: Result<seq<Field>>)
    ensures r.Threw? <==> Nullish(v)
    ensures r.Threw? ==> r.error == TypeError
    ensures v.Obj? ==> r == Ok(v.fields)
    ensures v.Arr? ==> r.Ok? && |r.value| == |v.items|
    ensures v.Arr? ==> forall i :: 0 <= i < |v.items| ==> r.value[i] == Field(NatToString(i), v.items[i])
  {
    match v
    case Undefined => Threw(TypeError)
    case Null => Threw(TypeError)
    case Bool(_) => Ok([])
    case Num(_) => Ok([])
    case Str(s) => Ok(seq(|s|, i requires 0 <= i < |s| => Field(NatToString(i), Str([s[i]]))))
    case Arr(items) => Ok(seq(|items|, i requires 0 <= i < |items| => Field(NatToString(i), items[i])))
    case Obj(fields) => Ok(fields)
  }

  function Keys(entries: seq<Field>): (ks: seq<string>)
    ensures |ks| == |entries|
    ensures forall i :: 0 <= i < |entries| ==> ks[i] == entries[i].key
  {
    seq(|entries|, i requires 0 <= i < |entries| => entries[i].key)
  }

  function Values(entries: seq<Field>): (vs: seq<Value>)
    ensures |vs| == |entries|
    ensures forall i :: 0 <= i < |entries| ==> vs[i] == entries[i].val
  {
    seq(|entries|, i requires 0 <= i < |entries| => entries[i].val)
  }
}

=== FILE: queries.dfy ===
/**
  The INSERT statements the service process builds for the tasks table: the column list
  from a task's own keys, one `?` placeholder per field, and the field values in key order
  as the query's parameters. Executing the statement is the database's business and is
  not modelled; a `Query` is what would be handed to it.
 */
module Queries {
  import opened JsValues
  import opened JsStrings

  /** The text and the parameters passed to `db.query(sql, values)`. */
  datatype Query = Query(sql: string, params: seq<Value>)

  const NoTasksMessage := "No tasks to create"

  /** `keys.fill('?').join(', ')` for `n` keys. */
  function PlaceholderList(n: nat): string {
    Join(seq(n, _ => "?"), ", ")
  }

  /** One parenthesised placeholder tuple for a task with `n` fields. */
  function Tuple(n: nat): string {
    "(" + PlaceholderList(n) + ")"
  }

  /** `INSERT INTO tasks (<columns>) VALUES <rows>` */
  function InsertInto(columns: seq<string>, rows: string): string {
    "INSERT INTO tasks (" + Join(columns, ", ") + ") VALUES " + rows
  }

  /** `createTask(task)`: the statement inserting one task. */
  function CreateTask(task: Value): (r: Result<Query>)
    ensures r.Threw? <==> Nullish(task)
    ensures r.Ok? ==> r.value.sql == InsertInto(Keys(Entries(task).value), Tuple(|r.value.params|))
    ensures r.Ok? ==> |r.value.params| == |Entries(task).value|
    ensures r.Ok? ==> forall i :: 0 <= i < |r.value.params| ==> r.value.params[i] == Entries(task).value[i].val
  {
    match Entries(task)
    case Threw(e) => Threw(e)
    case Ok(es) =>
      var fields := Join(Keys(es), ", ");
      var placeholders := PlaceholderList(|es|);
      Ok(Query("INSERT INTO tasks (" + fields + ") VALUES (" + placeholders + ")", Values(es)))
  }

  /** The entries of every task, or the `TypeError` of the first one that is `undefined` or `null`. */
  function AllEntries(items: seq<Value>): (r: Result<seq<seq<Field>>>)
    ensures r.Threw? <==> exists i :: 0 <= i < |items| && Nullish(items[i])
    ensures r.Threw? ==> r.error == TypeError
    ensures r.Ok? ==> |r.value| == |items|
    ensures r.Ok? ==> forall i :: 0 <= i < |items| ==> Entries(items[i]) == Ok(r.value[i])
  {
    if |items| == 0 then Ok([])
    else match Entries(items[0])
      case Threw(e) => Threw(e)
      case Ok(es) =>
        match AllEntries(items[1..])
        case Threw(e) =>
          assert forall i :: 1 <= i < |items| ==> items[1..][i - 1] == items[i];
          Threw(e)
        case Ok(rest) =>
          assert forall i :: 1 <= i < |items| ==> items[1..][i - 1] == items[i];
          Ok([es] + rest)
  }

  /** `tasks.flatMap(Object.values)` once every task's entries are known. */
  function FlatValues(entries: seq<seq<Field>>): seq<Value> {
    if |entries| == 0 then [] else Values(entries[0]) + FlatValues(entries[1..])
  }

  /** Where the values of the task at `i` start in the flattened parameter list. */
  function Offset(entries: seq<seq<Field>>, i: nat): nat
    requires i <= |entries|
  {
    |FlatValues(entries[..i])|
  }

  /**
    The values of the task at `i` fill the parameters from `Offset(entries, i)` on, in their
    key order, and the parameters end with the last task's values.
   */
  ghost predicate ValuesInOrder(entries: seq<seq<Field>>, params: seq<Value>) {
    && |params| == Offset(entries, |entries|)
    && forall i :: 0 <= i < |entries| ==>
      Offset(entries, i) + |entries[i]| <= |params| &&
      params[Offset(entries, i)..Offset(entries, i) + |entries[i]|] == Values(entries[i])
  }

  lemma {:induction false} FlatValuesSlice(entries: seq<seq<Field>>, i: nat)
    requires i < |entries|
    ensures Offset(entries, i) + |entries[i]| <= |FlatValues(entries)|
    ensures FlatValues(entries)[Offset(entries, i)..Offset(entries, i) + |entries[i]|] == Values(entries[i])
  {
    var head := Values(entries[0]);
    var rest := FlatValues(entries[1..]);
    assert FlatValues(entries) == head + rest;
    if i == 0 {
      assert entries[..0] == [];
    } else {
      FlatValuesSlice(entries[1..], i - 1);
      assert entries[..i][1..] == entries[1..][..i - 1];
      assert FlatValues(entries[..i]) == head + FlatValues(entries[1..][..i - 1]);
      var o := Offset(entries[1..], i - 1);
      assert Offset(entries, i) == |head| + o;
      assert entries[1..][i - 1] == entries[i];
      SliceAfterPrefix(head, rest, o, |entries[i]|);
    }
  }

  lemma SliceAfterPrefix(a: seq<Value>, b: seq<Value>, o: nat, n: nat)
    requires o + n <= |b|
    ensures (a + b)[|a| + o..|a| + o + n] == b[o..o + n]
  {
  }

  /** `flatMap` lays every task's values out in task order. */
  lemma FlatValuesInOrder(entries: seq<seq<Field>>)
    ensures ValuesInOrder(entries, FlatValues(entries))
  {
    assert entries[..|entries|] == entries;
    forall i | 0 <= i < |entries|
      ensures Offset(entries, i) + |entries[i]| <= |FlatValues(entries)|
      ensures FlatValues(entries)[Offset(entries, i)..Offset(entries, i) + |entries[i]|] == Values(entries[i])
    {
      FlatValuesSlice(entries, i);
    }
  }

  /** `tasks.map(task => ...)`: one tuple per task, sized by that task's own keys. */
  function TupleList(entries: seq<seq<Field>>): seq<string> {
    seq(|entries|, i requires 0 <= i < |entries| => Tuple(|entries[i]|))
  }

  /**
    `bulkCreateTasks(tasks)`. An empty array, and anything whose `length` is falsy, throws
    "No tasks to create" before any query is built; `undefined` and `null` throw a
    `TypeError` reading `length`; a non-empty string or an object with a truthy `length`
    throws a `TypeError` because it has no `map`.
   */
  function BulkCreateTasks(tasks: Value): (r: Result<Query>)
    ensures tasks == Arr([]) ==> r == Threw(Error(NoTasksMessage))
    ensures r.Ok? ==> tasks.Arr? && |tasks.items| >= 1
    ensures r.Ok? ==> forall i :: 0 <= i < |tasks.items| ==> !Nullish(tasks.items[i])
    ensures r.Ok? ==> exists rows :: r.value.sql == InsertInto(Keys(Entries(tasks.items[0]).value), rows)
    ensures (tasks.Arr? && |tasks.items| >= 1 && forall i :: 0 <= i < |tasks.items| ==> !Nullish(tasks.items[i])) ==> r.Ok?
    ensures r.Ok? ==> r.value.params == FlatValues(AllEntries(tasks.items).value)
    ensures Nullish(tasks) ==> r == Threw(TypeError)
    ensures tasks.Bool? || tasks.Num? || tasks == Str("") ==> r == Threw(Error(NoTasksMessage))
    ensures tasks.Str? && tasks.s != "" ==> r == Threw(TypeError)
    ensures tasks.Obj? ==> r.Threw?
    ensures (&& tasks.Arr? && |tasks.items| >= 1
             && exists i :: 0 <= i < |tasks.items| && Nullish(tasks.items[i]))
            ==> r == Threw(TypeError)
  {
    match tasks
    case Undefined => Threw(TypeError)
    case Null => Threw(TypeError)
    case Bool(_) => Threw(Error(NoTasksMessage))
    case Num(_) => Threw(Error(NoTasksMessage))
    case Str(s) => if s == "" then Threw(Error(NoTasksMessage)) else Threw(TypeError)
    case Obj(fields) => if !Truthy(Lookup(fields, "length")) then Threw(Error(NoTasksMessage)) else Threw(TypeError)
    case Arr(items) =>
      if |items| == 0 then Threw(Error(NoTasksMessage))
      else match AllEntries(items)
        case Threw(e) => Threw(e)
        case Ok(entries) =>
          var fields := Join(Keys(entries[0]), ", ");
          var placeholders := Join(TupleList(entries), ", ");
          assert Entries(items[0]) == Ok(entries[0]);
          assert "INSERT INTO tasks (" + fields + ") VALUES " + placeholders
              == InsertInto(Keys(Entries(items[0]).value), placeholders);
          Ok(Query("INSERT INTO tasks (" + fields + ") VALUES " + placeholders, FlatValues(entries)))
  }

  lemma {:induction false} PlaceholderListCount(n: nat)
    ensures CountOf('?', PlaceholderList(n)) == n
    ensures CountOf('(', PlaceholderList(n)) == 0
  {
    var parts := seq(n, _ => "?");
    if n > 0 {
      CountOfJoin('?', parts, ", ");
      CountOfJoin('(', parts, ", ");
      AllQuestionMarks(parts);
      CountOfAbsent('?', ", ");
      CountOfAbsent('(', ", ");
    }
  }

  lemma {:induction false} AllQuestionMarks(parts: seq<string>)
    requires forall i :: 0 <= i < |parts| ==> parts[i] == "?"
    ensures CountOfAll('?', parts) == |parts|
    ensures CountOfAll('(', parts) == 0
  {
    if |parts| > 0 {
      assert parts[0] == "?";
      assert CountOf('?', "?") == 1 && CountOf('(', "?") == 0;
      AllQuestionMarks(parts[1..]);
    }
  }

  lemma TupleCount(n: nat)
    ensures CountOf('?', Tuple(n)) == n
    ensures CountOf('(', Tuple(n)) == 1
  {
    PlaceholderListCount(n);
    CountOfAppend('?', "(" + PlaceholderList(n), ")");
    CountOfAppend('?', "(", PlaceholderList(n));
    CountOfAppend('(', "(" + PlaceholderList(n), ")");
    CountOfAppend('(', "(", PlaceholderList(n));
  }

  /**
    `createTask`: the statement is `INSERT INTO tasks (<the task's keys>) VALUES (...)` whose
    single tuple holds exactly one `?` per parameter.
   */
  lemma CreateTaskPlaceholdersMatchParams(task: Value)
    requires CreateTask(task).Ok?
    ensures var q := CreateTask(task).value;
            exists rows :: q.sql == InsertInto(Keys(Entries(task).value), rows) &&
              CountOf('?', rows) == |q.params| && CountOf('(', rows) == 1
  {
    var q := CreateTask(task).value;
    TupleCount(|q.params|);
    assert q.sql == InsertInto(Keys(Entries(task).value), Tuple(|q.params|));
  }

  /** Counting placeholders tuple by tuple. */
  lemma {:induction false} TuplesCount(entries: seq<seq<Field>>)
    ensures CountOf('?', Join(TupleList(entries), ", ")) == |FlatValues(entries)|
    ensures CountOf('(', Join(TupleList(entries), ", ")) == |entries|
  {
    if |entries| > 0 {
      CountOfJoin('?', TupleList(entries), ", ");
      CountOfJoin('(', TupleList(entries), ", ");
      CountOfAbsent('?', ", ");
      CountOfAbsent('(', ", ");
      TuplesCountAll(entries);
    }
  }

  lemma {:induction false} TuplesCountAll(entries: seq<seq<Field>>)
    ensures CountOfAll('?', TupleList(entries)) == |FlatValues(entries)|
    ensures CountOfAll('(', TupleList(entries)) == |entries|
  {
    if |entries| > 0 {
      assert TupleList(entries)[1..] == TupleList(entries[1..]);
      TuplesCountAll(entries[1..]);
      TupleCount(|entries[0]|);
    }
  }

  /**
    `bulkCreateTasks`: the columns are the first task's keys only; the VALUES part is one
    tuple per task, each with as many `?` as that task has keys, and as many `?` in all
    as there are parameters.
   */
  lemma BulkPlaceholdersMatchParams(tasks: Value)
    requires BulkCreateTasks(tasks).Ok?
    ensures var q := BulkCreateTasks(tasks).value;
            var groups := TupleList(AllEntries(tasks.items).value);
            && q.sql == InsertInto(Keys(Entries(tasks.items[0]).value), Join(groups, ", "))
            && |groups| == |tasks.items|
            && (forall i :: 0 <= i < |groups| ==> CountOf('?', groups[i]) == |Entries(tasks.items[i]).value|)
            && CountOf('?', Join(groups, ", ")) == |q.params|
            && CountOf('(', Join(groups, ", ")) == |tasks.items|
  {
    var entries := AllEntries(tasks.items).value;
    var groups := TupleList(entries);
    forall i | 0 <= i < |groups|
      ensures CountOf('?', groups[i]) == |Entries(tasks.items[i]).value|
    {
      TupleCount(|entries[i]|);
    }
    TuplesCount(entries);
  }

  /**
    `tasks.flatMap(Object.values)`: the parameters are every task's values, task after task,
    each task's in its own key order, and nothing else; the values of task `i` start right
    after those of the tasks before it.
   */
  lemma BulkParamsInTaskOrder(tasks: Value)
    requires BulkCreateTasks(tasks).Ok?
    ensures var entries := AllEntries(tasks.items).value;
            var params := BulkCreateTasks(tasks).value.params;
            |entries| == |tasks.items| && ValuesInOrder(entries, params)
  {
    var entries := AllEntries(tasks.items).value;
    assert BulkCreateTasks(tasks).value.params == FlatValues(entries);
    FlatValuesInOrder(entries);
  }

  /** A batch of one task issues the same statement as creating that task alone. */
  lemma BulkOfOneIsCreate(task: Value)
    requires !Nullish(task)
    ensures BulkCreateTasks(Arr([task])) == CreateTask(task)
  {
    var es := Entries(task).value;
    var r := AllEntries([task]);
    assert !exists i :: 0 <= i < |[task]| && Nullish([task][i]);
    assert r.Ok? && |r.value| == 1 && Entries([task][0]) == Ok(r.value[0]);
    assert r.value == [es];
    assert FlatValues([es]) == Values(es) by {
      assert [es][1..] == [];
    }
  }
}

=== FILE: services.dfy ===
/**
  The responder side of the task bus, in the service process: the `process:msg` listener
  that routes a packet by its topic to `createTask`, `bulkCreateTasks` or
  `handleGetAllTasks`, and the single reply `handleGetAllTasks` sends back to the sender.

  Reading the tasks table is an oracle (`Fetch`), and so is whether the database accepts
  an INSERT. Logging is reduced to whether a warning or an error is emitted.
 */
module Services {
  import opened JsValues
  import Queries

  const CreateTaskTopic := "API/POST/createTask"
  const BulkCreateTasksTopic := "API/POST/bulkCreateTasks"
  const GetAllTasksTopic := "API/GET/getAllTasks"
  const ResponseTopic := "API/GET/getAllTasks:response"

  /** A delivered packet: the sender's `process.pm_id` and the body `packet.data`. */
  datatype Packet = Packet(pmId: int, data: Value)

  /** `pm2.sendDataToProcessId(to, { type: 'process:msg', data: { topic, data } })` */
  datatype Reply = Reply(to: int, topic: string, data: Value)

  /** What reading the tasks table gave: its rows, or a thrown error's `message`. */
  datatype Fetch = Rows(tasks: Value) | FetchFailed(message: Value)

  datatype Log = Quiet | Warned | Errored

  /** Everything one packet caused: INSERTs issued, replies sent, and what was logged. */
  datatype Handled = Handled(queries: seq<Queries.Query>, replies: seq<Reply>, log: Log)

  /** The branch of the topic `switch`. */
  datatype Route = ToCreateTask | ToBulkCreateTasks | ToGetAllTasks | Unknown

  /** The `switch (topic)`: strict equality against the three known topics. */
  function RouteOf(topic: Value): Route {
    if topic == Str(CreateTaskTopic) then ToCreateTask
    else if topic == Str(BulkCreateTasksTopic) then ToBulkCreateTasks
    else if topic == Str(GetAllTasksTopic) then ToGetAllTasks
    else Unknown
  }

  /** The topic each handled route answers to. */
  function TopicOf(r: Route): Option<string> {
    match r
    case ToCreateTask => Some(CreateTaskTopic)
    case ToBulkCreateTasks => Some(BulkCreateTasksTopic)
    case ToGetAllTasks => Some(GetAllTasksTopic)
    case Unknown => None
  }

  /** Routing picks a handler exactly for that handler's own topic; everything else is unknown. */
  lemma RouteOfTopicOf(topic: Value, r: Route)
    ensures RouteOf(topic) == r && r != Unknown <==> TopicOf(r).Some? && topic == Str(TopicOf(r).value)
  {
  }

  /**
    `sendResponseToCaller(packet, data)`: the body goes back unchanged to the sender, always on
    the `getAllTasks` request topic followed by ":response", whatever topic the packet carried.
   */
  function SendResponseToCaller(packet: Packet, data: Value): (r: Reply)
    ensures r.to == packet.pmId && r.data == data
    ensures r.topic == GetAllTasksTopic + ":response"
  {
    Reply(packet.pmId, ResponseTopic, data)
  }

  /** `handleGetAllTasks(packet)`: exactly one reply, `{ tasks }` or `{ error: error.message }`. */
  function HandleGetAllTasks(packet: Packet, fetch: Fetch): (r: Reply)
    ensures r.to == packet.pmId && r.topic == ResponseTopic
    ensures fetch.Rows? ==> r.data == Obj([Field("tasks", fetch.tasks)])
    ensures fetch.FetchFailed? ==> r.data == Obj([Field("error", fetch.message)])
  {
    match fetch
    case Rows(tasks) => SendResponseToCaller(packet, Obj([Field("tasks", tasks)]))
    case FetchFailed(message) => SendResponseToCaller(packet, Obj([Field("error", message)]))
  }

  /** Awaiting a query builder and then the database; a throw from either is caught and logged. */
  function RunInsert(q: Result<Queries.Query>, insertSucceeds: bool): (h: Handled)
    ensures h.replies == []
    ensures q.Threw? ==> h == Handled([], [], Errored)
    ensures q.Ok? ==> h.queries == [q.value]
    ensures q.Ok? ==> (h.log == Errored <==> !insertSucceeds)
  {
    match q
    case Threw(_) => Handled([], [], Errored)
    case Ok(query) => Handled([query], [], if insertSucceeds then Quiet else Errored)
  }

  /**
    The `process:msg` listener for one packet. Destructuring `packet.data` and reading
    `data.task` / `data.tasks` may throw; every throw is caught inside the listener and
    logged, so the result is total.
   */
  function OnMessage(packet: Packet, fetch: Fetch, insertSucceeds: bool): (h: Handled)
    ensures |h.replies| <= 1
    ensures |h.replies| == 1 <==> !Nullish(packet.data) && RouteOf(Get(packet.data, "topic")) == ToGetAllTasks
    ensures forall r :: r in h.replies ==> r.to == packet.pmId && r.topic == ResponseTopic
    ensures |h.queries| <= 1
    ensures |h.queries| == 1 ==> |h.replies| == 0
    ensures !Nullish(packet.data) && RouteOf(Get(packet.data, "topic")) == Unknown ==> h == Handled([], [], Warned)
    ensures h.log == Warned ==> h.queries == [] && h.replies == []
    ensures Nullish(packet.data) ==> h == Handled([], [], Errored)
    ensures (&& !Nullish(packet.data)
             && RouteOf(Get(packet.data, "topic")) in {ToCreateTask, ToBulkCreateTasks}
             && Nullish(Get(packet.data, "data")))
            ==> h == Handled([], [], Errored)
  {
    if Nullish(packet.data) then Handled([], [], Errored)
    else
      var topic := Get(packet.data, "topic");
      var data := Get(packet.data, "data");
      match RouteOf(topic)
      case ToCreateTask =>
        (match Prop(data, "task")
         case Threw(_) => Handled([], [], Errored)
         case Ok(task) => RunInsert(Queries.CreateTask(task), insertSucceeds))
      case ToBulkCreateTasks =>
        (match Prop(data, "tasks")
         case Threw(_) => Handled([], [], Errored)
         case Ok(tasks) => RunInsert(Queries.BulkCreateTasks(tasks), insertSucceeds))
      case ToGetAllTasks =>
        Handled([], [HandleGetAllTasks(packet, fetch)], if fetch.FetchFailed? then Errored else Quiet)
      case Unknown => Handled([], [], Warned)
  }

  /**
    A `createTask` packet issues exactly the statement `createTask(data.task)` builds, and never
    replies; without `data`, reading `data.task` throws and the error is only logged.
   */
  lemma CreateTaskDispatch(packet: Packet, fetch: Fetch, insertSucceeds: bool)
    requires !Nullish(packet.data) && Get(packet.data, "topic") == Str(CreateTaskTopic)
    ensures var h := OnMessage(packet, fetch, insertSucceeds);
            var data := Get(packet.data, "data");
            && h.replies == []
            && (Nullish(data) ==> h == Handled([], [], Errored))
            && (!Nullish(data) ==>
                  var q := Queries.CreateTask(Get(data, "task"));
                  && h == RunInsert(q, insertSucceeds)
                  && (q.Ok? ==> h.queries == [q.value] && (h.log == Errored <==> !insertSucceeds))
                  && (q.Threw? ==> h.queries == [] && h.log == Errored))
  {
  }

  /**
    A `bulkCreateTasks` packet issues exactly the statement `bulkCreateTasks(data.tasks)` builds,
    and never replies; without `data`, reading `data.tasks` throws and the error is only logged.
   */
  lemma BulkCreateTasksDispatch(packet: Packet, fetch: Fetch, insertSucceeds: bool)
    requires !Nullish(packet.data) && Get(packet.data, "topic") == Str(BulkCreateTasksTopic)
    ensures var h := OnMessage(packet, fetch, insertSucceeds);
            var data := Get(packet.data, "data");
            && h.replies == []
            && (Nullish(data) ==> h == Handled([], [], Errored))
            && (!Nullish(data) ==>
                  var q := Queries.BulkCreateTasks(Get(data, "tasks"));
                  && h == RunInsert(q, insertSucceeds)
                  && (q.Ok? ==> h.queries == [q.value] && (h.log == Errored <==> !insertSucceeds))
                  && (q.Threw? ==> h.queries == [] && h.log == Errored))
  {
  }

  /** A `getAllTasks` packet is answered once, on success and on failure alike, and inserts nothing. */
  lemma GetAllTasksAnsweredOnce(packet: Packet, fetch: Fetch, insertSucceeds: bool)
    requires !Nullish(packet.data) && Get(packet.data, "topic") == Str(GetAllTasksTopic)
    ensures var h := OnMessage(packet, fetch, insertSucceeds);
            && h.queries == []
            && h.replies == [HandleGetAllTasks(packet, fetch)]
            && (h.log == Errored <==> fetch.FetchFailed?)
  {
  }
}
